=== FILE: README.md ===
# generic-list in Dafny

A model of `list.h` from generic-list: a header of C macros that generates a
type-parametric doubly linked list. It provides a node type (`struct list_T`
with `next`, `prev` and `entry`), a handle (`struct list_sentinal_T` with
`head`, `tail`, a `size_t length` and an optional destructor), and these
operations:

- `LIST_APPEND` and `LIST_PREPEND`, which go through the shared `_LIST_ADD`;
- `LIST_REMOVE` and `LIST_DEL`;
- `LIST_POPF` and `LIST_POPB`, which go through `_LIST_POP`;
- the plain and the safe iterators, forward and reverse;
- `LIST_DESTROY`;
- the constructor `new_list_T`.

The model treats C memory as a value: a heap maps addresses to nodes (`Memory`),
and a state is a heap, a handle and a log of destructor calls (`ListModel`).
Each macro is a function or method that does the macro's reads and writes in the
macro's order:

- `ListOps`: add, remove, delete and pop as functions of the state, with the node from `malloc` as a parameter;
- `ListMacros`: the same macros as a caller invokes them, with `malloc` inside the add;
- `ListIter`: the iterators and destroy;
- `ListNew`: the constructor.

The list invariant `Valid(s, ns)` ties a state to a ghost sequence `ns` of node
addresses, head first. The lemmas and method contracts state what each operation
does to a valid list:

- the list stays valid;
- its values change as a sequence would (append, prepend, drop a position,
  map);
- `length` follows the node count;
- exactly the expected nodes are allocated or freed;
- nodes outside the list are untouched;
- the destructor is called on exactly the deleted values, in order.

`ListLaws` relates the operations to each other. A state is determined by its
values and the memory around it, and popping from the end just added to undoes
the add exactly.

What is a parameter rather than modelled:

- `malloc`: in `ListOps` the address of a new node is a parameter that must not
  be allocated. `ListMacros` and the constructor get it from `Memory.Malloc`,
  which returns some unallocated address; which one it is does not matter to the list.
- The destructor function pointer: modelled by whether it is set
  (`hasDestructor`). Its calls are appended to `State.destroyed`.
- The plain iterator's callback: a function `f` on the entry
  (`var->entry = f(var->entry)`).
- The safe iterator's callback: `LIST_DEL(list, var)`. `LIST_DESTROY` and the
  int test in `list_test.c` use that callback.

## Model

| member | source | states |
|---|---|---|
| Memory.Inc | list.h:155 | `++length` on a `size_t`: one more, except that `SIZE_MAX` wraps to 0 |
| Memory.Dec | list.h:222 | `length--` on a `size_t`: one less, except that 0 wraps to `SIZE_MAX` |
| Memory.Malloc | list.h:142 | the address given for a new node holds no live node |
| ListModel.ValidChain | list.h:263-270 | from the head along `next`, or from the tail along `prev`, a valid list is a NULL-terminated chain through its nodes in order (reversed from the tail), each node met once; iteration relies on this |
| ListModel.EmptyIffNoEnds | list.h:125-131 | a valid list is empty exactly when `head` is NULL, and exactly when `tail` is NULL; only the head node has a NULL `prev` and only the tail node a NULL `next` |
| ListModel.NodesDetermined | list.h:102-131 | the handle and the heap fix the chain: two node sequences that both make a state valid are equal |
| ListModel.SameFrom | list.h:102-107 | following `next` from the same head reaches the same node at every position |
| ListOps.Add | list.h:140-156 | `_LIST_ADD` needs the `top` end to be NULL or a live node, and a `newNode` address that is not allocated. It allocates exactly `newNode`, holding `elem`, which becomes the `top` end. `length` goes through `size_t` `++`, and the macro's value is the new length. The destructor and the log are unchanged. `ListOps.AppendSpec` and `ListOps.PrependSpec` state the effect on a valid list |
| ListOps.Append | list.h:172 | `LIST_APPEND` is `_LIST_ADD` from the tail: the new node holding `elem` becomes the tail, and the value is the incremented length |
| ListOps.Prepend | list.h:188 | `LIST_PREPEND` is `_LIST_ADD` from the head: the new node holding `elem` becomes the head, and the value is the incremented length |
| ListOps.Remove | list.h:212-223 | `LIST_REMOVE` needs the node and the `prev` and `next` it dereferences to be live. It frees nothing and changes no entry. `length` goes through `size_t` `--`, and the macro's value is the length before the removal. `ListOps.RemoveSpec` and `ListOps.RemoveKeepsNodes` state the effect on a valid list |
| ListOps.Delete | list.h:196-202 | `LIST_DEL` has the same requirements as remove. It frees exactly that node and decrements `length`. The log gains the node's entry exactly when a destructor is set. `ListOps.DeleteSpec` and `ListOps.DeleteFrees` state the effect on a valid list |
| ListOps.Pop | list.h:230-238 | `_LIST_POP` needs the `sentinal` end to be a node that can be unlinked; there is no emptiness check. It returns that node's entry, frees exactly that node, decrements `length` and leaves the log unchanged. `ListOps.PopSpec` states the effect on a valid list |
| ListOps.PopFront | list.h:247 | `LIST_POPF` returns the head node's entry and frees exactly that node |
| ListOps.PopBack | list.h:256 | `LIST_POPB` returns the tail node's entry and frees exactly that node |
| ListOps.AppendSpec | list.h:140-156 | `LIST_APPEND` on a valid list with fewer than `SIZE_MAX` nodes returns the new length. The new node becomes the tail, and also the head when the list was empty. Its values gain the element at the back. The destructor and its log are unchanged, exactly the new node is allocated, and no node outside the list changes |
| ListOps.PrependSpec | list.h:140-156 | `LIST_PREPEND` (list.h:188): the same guarantees as append, with the element at the front, the new node as head, and the tail kept unless the list was empty |
| ListOps.ValidUnlinkable | list.h:212-223 | every node of a valid list can be removed: its `prev` and `next` are NULL or live |
| ListOps.RemoveSpec | list.h:212-223 | `LIST_REMOVE` of position `i` leaves a valid list of the other nodes, with that position's value dropped. `length` is one less; the head or tail moves to the neighbour when the removed node was one. The list is empty exactly when one node was left. The macro's value is the length before the removal |
| ListOps.RemoveKeepsNodes | list.h:212-223 | remove frees nothing, changes no entry, leaves the removed node's own links as they were, and changes no node outside the list |
| ListOps.DeleteSpec | list.h:196-202 | `LIST_DEL` unlinks the node as remove does. When a destructor is set, the node's entry is appended to the destructor log once; otherwise the log is unchanged |
| ListOps.DeleteFrees | list.h:196-202 | delete frees exactly the deleted node, changes no entry and no node outside the list |
| ListOps.PopSpec | list.h:230-238 | `_LIST_POP` on a non-empty valid list returns the end's entry. It removes and frees that node and leaves a valid list of the others with `length` one less. The destructor log is unchanged |
| ListOps.PopFrontSpec | list.h:247 | `LIST_POPF` returns the first value and leaves the list of the remaining values |
| ListOps.PopBackSpec | list.h:256 | `LIST_POPB` returns the last value and leaves the list of the values before it |
| ListOps.RemoveNewLength | list.h:204-211 | the remove the comment documents: the same unlinking, returning the length of the remaining list |
| ListMacros.ListAppend | list.h:172 | `LIST_APPEND` with its own `malloc`: the new tail is a node not allocated before. The list's values gain the element at the back, the head is that node only when the list was empty, and the result is the new length. Nothing else is allocated, and no node outside the list changes |
| ListMacros.ListPrepend | list.h:188 | `LIST_PREPEND` with its own `malloc`: the new head is a node not allocated before. The list's values gain the element at the front, the tail is that node only when the list was empty, and the result is the new length |
| ListMacros.ListRemove | list.h:212-223 | `LIST_REMOVE` of the node at position `i`: the list's values lose that position, and the head or tail moves past the node when it was one. `length` drops by one, while the macro's value is the length before the removal. No node is freed, no entry changes, and the removed node keeps its links |
| ListMacros.ListDel | list.h:196-202 | `LIST_DEL` of the node at position `i`: the list's values lose that position. The destructor log gains that value when a destructor is set. Exactly that node is freed |
| ListMacros.ListPopF | list.h:247 | `LIST_POPF` on a non-empty list returns its first value and leaves the list of the others, with the head node freed and the log unchanged |
| ListMacros.ListPopB | list.h:256 | `LIST_POPB` on a non-empty list returns its last value and leaves the list of the others, with the tail node freed and the log unchanged |
| ListMacros.PoppedStep | list.h:230-238 | one more pop from the front extends the popped prefix by the next value and frees one more node |
| ListMacros.PopFrontRepeatedly | list_test.c:57-62 | `k` pops from the front return the first `k` values in order. They leave a valid list of the rest, with `length` down by `k` and exactly the popped nodes freed. No entry changes and no node outside the list changes |
| ListLaws.SameState | list.h:125-131 | two valid states over the same nodes are equal when they agree on values, destructor, log, allocated addresses and nodes outside the list |
| ListLaws.AppendPopBack | list.h:230-238 | popping the back right after an append returns the appended element and restores the exact state before the append |
| ListLaws.PrependPopFront | list.h:230-238 | popping the front right after a prepend returns the prepended element and restores the exact state before the prepend |
| ListIter.Traverse | list.h:263-270 | the loop of `_LIST_FOR_EACH` along a chain visits the chain's nodes in order, each once, and applies the callback to exactly those nodes |
| ListIter.ForEachStep | list.h:266-268 | one turn of the loop updates the current node, and its link then leads to the next node of the chain |
| ListIter.ForEachDone | list.h:263-270 | after the walk, the list is valid with every value mapped and no node outside it changed |
| ListIter.ForEach | list.h:282-296 | `LIST_FOR_EACH` (from the head) and `LIST_FOR_EACH_REV` (from the tail) visit every node once, from that end. Afterwards the list is valid, its values are the old values mapped by the callback, and the handle, the log and every other node are unchanged |
| ListIter.DeleteEnd | list.h:196-202 | deleting the node at either end of a valid list leaves a valid list of the rest. It logs that entry when a destructor is set and frees only that node |
| ListIter.DeleteCallback | list.h:349-350 | the callback `LIST_DEL(list, var)` on the first node of the remaining walk deletes it as above |
| ListIter.DeletingStart | list.h:303-308 | before the first turn of the safe loop nothing is deleted |
| ListIter.DeletingNext | list.h:311-313 | after `k` turns, the next node of the walk (or NULL at its end) is live, and its link is the node after it, so `temp` reads the right pointer |
| ListIter.DeletingStep | list.h:309-314 | one turn of the safe loop with the delete callback extends the deleted prefix by one node, logs its entry and frees it |
| ListIter.DeletingDone | list.h:303-315 | after the last turn, the handle has no head, no tail and length 0. The log holds the values in visiting order, and exactly the list's nodes are freed |
| ListIter.SafeDeleteStart | list.h:305-308 | `var = list->sentinal` and, when it is not NULL, `temp = var->direction` start the walk at its first node with `temp` the second |
| ListIter.SafeDeleteTurn | list.h:309-314 | one turn: the callback deletes `var`, then `var = temp` and `temp = var->direction` advance the walk by one node, without reading the freed node |
| ListIter.SafeDeleteLoop | list.h:303-315 | the safe loop with the delete callback runs to the end of the walk, visiting every node once |
| ListIter.ForEachSafeDelete | list.h:327-341 | `LIST_FOR_EACH_SAFE` and `LIST_FOR_EACH_REV_SAFE` with the callback `LIST_DEL(list, var)` visit every node once, from their end. The list is left empty and valid. The destructor log gains every value in visiting order when a destructor is set. Exactly the list's nodes are freed and every other node is unchanged |
| ListIter.Destroy | list.h:348-350 | `LIST_DESTROY` leaves the list empty and reusable, calls the destructor (when set) once per value from head to tail, and frees exactly the list's nodes |
| ListNew.AppendNext | list.h:372-373 | one turn of the constructor's loop appends `initializer[i]` in a freshly allocated node |
| ListNew.FreshFrame | list.h:372-373 | an append keeps the constructor's frame: new nodes were not allocated before, and old nodes are untouched |
| ListNew.NewList | list.h:362-375 | `new_list_T(initializer, len, d)` with a NULL initializer gives the empty list with the destructor stored and allocates nothing. Otherwise its values are `initializer[0..len)` in order. Either way the list is valid and its log is empty. Every node of the list is newly allocated, and nodes allocated before are untouched |
| ListNew.BuildingDone | list_test.c:44-47 | a non-empty constructed list has the first initializer element at its head and the last at its tail |

## Left out

- The preprocessor instantiation (`EXPAND`, `TYPEHACK`, `TYPE_PTR`, `LIST_DEFN`, `LIST_SENTINALS`, `LIST_DESTRUCTOR`) and the compile-time separation of lists of different element types. These become Dafny's type parameter `T`.
- Calls of the destructor: a function pointer into caller code. The model records the values it would be called on, in `State.destroyed`.
- `malloc` failure: the macros never check `malloc`'s result, so the model has no allocation-failure path.
- Callbacks other than an entry update (plain iterator) and `LIST_DEL` of the current node (safe iterator), for example callbacks that add nodes during a walk. A deleting callback in the plain iterator reads a freed node; the header documents it as not allowed.
- ListOps.PopFrontSpec: requires a non-empty list, as does every pop. The source has no emptiness check and reads through a NULL `head`/`tail` when the list is empty.
- ListOps.RemoveSpec: requires the node to be in the list, as does every remove and delete. Removing a node that is not in the list is not modelled.
- ListOps.AppendSpec: requires fewer than `SIZE_MAX` nodes, as does `ListOps.PrependSpec`. `length` then never wraps. `Memory.Inc` models the wrap itself.
- ListNew.NewList: requires `len` to be at most the initializer's length. The source reads past the array otherwise.
- Macro arguments are modelled as values evaluated once. `LIST_REMOVE` and `LIST_DEL` textually re-evaluate `elem` after the head or tail has moved (list.h:198-201, 214-221), so an argument such as `(l)->head` names a different node partway through the macro; such calls are not modelled. The library's own callers pass a local variable (list.h:232, 350).
- The test harness in `list_test.c` (`TEST`, `definitions_test`, the string test with `strdup`) is not modelled. The int test's steps correspond to `ListNew.BuildingDone`, `ListMacros.ListAppend`, `ListMacros.ListPrepend`, `ListIter.ForEach`, `ListMacros.PopFrontRepeatedly`, `ListIter.ForEachSafeDelete` and `ListIter.Destroy`.

## Code and documentation

Where the descriptions of this library and its code disagree, the model follows the code:

- Remove: the comment at list.h:207 promises the new length, but `(list)->length--` (list.h:222) yields the old one. `ListOps.Remove` returns the old length. See Findings.

## Findings

| source | as written | input that shows it | evidently intended | confidence | as-written member | corrected member |
|---|---|---|---|---|---|---|
| list.h:222 | `LIST_REMOVE` evaluates to `(list)->length--`, the length before the removal | a list of one node: the macro yields 1 while the list is left with length 0 | the new length, as the comment at list.h:207 says | medium, not executed; no caller in the repository uses the value | ListMacros.ListRemove | ListOps.RemoveNewLength |

`ListOps.RemoveNewLength` leaves the same state as `ListOps.Remove`, which its contract states. Delete and pop use only that state, so the rest of the model is the same under either return value.

=== FILE: construct.dfy ===
/**
 The constructor `new_list_T(initializer, len, d)`: an empty handle with the
 destructor stored, then, unless the initializer is NULL, `LIST_APPEND` of each
 of the first `len` elements of the initializer array in order.
 */
module ListNew {
  import opened Memory
  import opened ListModel
  import opened ListOps
  import opened ListMacros

  /** A C pointer to an array that may be NULL. */
  datatype Option<X> = None | Some(value: X)

  /**
   The constructor after `i` appends: a valid list of the first `i` elements of
   `init`, with the destructor flag given and an empty destructor log, built from
   nodes that were not allocated before, leaving every earlier node as it was.
   */
  ghost predicate Building<T>(h: Heap<T>, init: seq<T>, hasDestructor: bool, s: State<T>, ns: seq<Addr>, i: int) {
    && 0 <= i <= |init|
    && Valid(s, ns)
    && Values(s, ns) == init[..i]
    && s.list.hasDestructor == hasDestructor
    && s.destroyed == []
    && (forall a :: (a in ns ==> a !in h) && (a in h ==> a in s.heap && s.heap[a] == h[a]) && (a in s.heap ==> a in h || a in ns))
  }

  /** One turn of the constructor's loop: `LIST_APPEND(&data, initializer[i])`, which takes its node from `malloc`. */
  method AppendNext<T>(h: Heap<T>, init: seq<T>, hasDestructor: bool, s: State<T>, ghost ns: seq<Addr>, i: SizeT)
    returns (s': State<T>, ghost ns': seq<Addr>)
    requires Building(h, init, hasDestructor, s, ns, i) && i < |init| && i < SIZE_MAX
    ensures Building(h, init, hasDestructor, s', ns', i + 1)
  {
    assert |ns| == |Values(s, ns)| == i;
    var length;
    s', length := ListAppend(s, ns, init[i]);
    ns' := ns + [s'.list.tail.addr];
    FreshFrame(h, ns, s.heap, s'.heap, s'.list.tail.addr);
    PrefixSnoc(init, i);
    BuildingIntro(h, init, hasDestructor, s', ns', i + 1);
  }

  /**
   The frame part of `Building` survives an append: the new node was not allocated
   before, and the append changes no node outside the list.
   */
  lemma FreshFrame<T>(h: Heap<T>, ns: seq<Addr>, heap: Heap<T>, heap': Heap<T>, newNode: Addr)
    requires forall a :: (a in ns ==> a !in h) && (a in h ==> a in heap && heap[a] == h[a]) && (a in heap ==> a in h || a in ns)
    requires newNode !in heap && heap'.Keys == heap.Keys + {newNode} && OthersUnchanged(heap, heap', ns)
    ensures forall a :: (a in ns + [newNode] ==> a !in h) && (a in h ==> a in heap' && heap'[a] == h[a]) && (a in heap' ==> a in h || a in ns + [newNode])
  {
  }

  /** Establishes `Building` from its parts, keeping the caller's context out of the final step. */
  lemma BuildingIntro<T>(h: Heap<T>, init: seq<T>, hasDestructor: bool, s: State<T>, ns: seq<Addr>, i: int)
    requires 0 <= i <= |init| && Valid(s, ns) && Values(s, ns) == init[..i]
    requires s.list.hasDestructor == hasDestructor && s.destroyed == []
    requires forall a :: (a in ns ==> a !in h) && (a in h ==> a in s.heap && s.heap[a] == h[a]) && (a in s.heap ==> a in h || a in ns)
    ensures Building(h, init, hasDestructor, s, ns, i)
  {
  }

  /**
   `new_list_T(initializer, len, d)`. With a NULL initializer the list is empty
   (no head, no tail, length 0) with the destructor stored and the heap as it
   was. Otherwise its values are `initializer[0..len)` in order, so the head
   holds the first element and the tail the last. Either way the list is valid,
   its destructor log is empty, every node of the list is newly allocated, and
   nodes allocated before are untouched.
   */
  method NewList<T>(h: Heap<T>, initializer: Option<seq<T>>, len: SizeT, hasDestructor: bool)
    returns (s: State<T>, ghost ns: seq<Addr>)
    requires initializer.Some? ==> len <= |initializer.value|
    ensures Valid(s, ns)
    ensures s.list.hasDestructor == hasDestructor && s.destroyed == []
    ensures initializer.None? ==> ns == [] && s.heap == h
    ensures initializer.Some? ==> Values(s, ns) == initializer.value[..len]
    ensures initializer.Some? && len > 0 ==>
              && s.list.head.At? && s.list.head.addr in s.heap
              && s.heap[s.list.head.addr].entry == initializer.value[0]
              && s.list.tail.At? && s.list.tail.addr in s.heap
              && s.heap[s.list.tail.addr].entry == initializer.value[len - 1]
    ensures forall a :: a in h ==> a in s.heap && s.heap[a] == h[a]
    ensures forall a :: a in s.heap ==> a in h || a in ns
    ensures forall a :: a in ns ==> a !in h
  {
    s := State(h, Sentinel(Null, Null, 0, hasDestructor), []);
    ns := [];
    if initializer.None? {
      return;
    }
    var init := initializer.value;
    var i: SizeT := 0;
    assert Building(h, init, hasDestructor, s, ns, 0);
    while i < len
      invariant i <= len
      invariant Building(h, init, hasDestructor, s, ns, i)
    {
      s, ns := AppendNext(h, init, hasDestructor, s, ns, i);
      i := i + 1;
    }
    BuildingDone(h, init, hasDestructor, s, ns, len);
  }

  /** A finished constructor's list holds the first element at its head and the last at its tail. */
  lemma BuildingDone<T>(h: Heap<T>, init: seq<T>, hasDestructor: bool, s: State<T>, ns: seq<Addr>, len: int)
    requires Building(h, init, hasDestructor, s, ns, len)
    ensures len > 0 ==>
              && s.list.head.At? && s.list.head.addr in s.heap
              && s.heap[s.list.head.addr].entry == init[0]
              && s.list.tail.At? && s.list.tail.addr in s.heap
              && s.heap[s.list.tail.addr].entry == init[len - 1]
  {
    if len > 0 {
      assert Values(s, ns)[0] == init[0] && Values(s, ns)[len - 1] == init[len - 1];
    }
  }
}

=== FILE: iterate.dfy ===
/**
 Traversal of a list from either end: the plain iterator, whose callback here
 updates the current node's entry, and the safe iterator, which reads the
 following node before running its callback so that the callback may delete
 the current node. `LIST_DESTROY` is the safe forward iteration that deletes
 every node.
 */
module ListIter {
  import opened Memory
  import opened ListModel
  import opened ListOps

  /**
   `f` applied to every element of `xs`: defined element by element from the
   front, and characterised position by position.
   */
  function MapSeq<X>(f: X -> X, xs: seq<X>): (r: seq<X>)
    ensures |r| == |xs|
    ensures forall i :: 0 <= i < |xs| ==> r[i] == f(xs[i])
  {
    if xs == [] then [] else [f(xs[0])] + MapSeq(f, xs[1..])
  }

  /** The same addresses occur in `xs` read from either end. */
  lemma OrderHas<X>(xs: seq<X>, e: End)
    ensures forall a :: a in Order(xs, e) <==> a in xs
  {
    if e == Tail {
      var os := Order(xs, e);
      forall a | a in xs
        ensures a in os
      {
        var i :| 0 <= i < |xs| && xs[i] == a;
        assert os[|xs| - 1 - i] == a;
      }
    }
  }

  /** The entries met walking from end `e` are the list's values read from that end. */
  lemma EntriesOrder<T>(h: Heap<T>, xs: seq<Addr>, e: End)
    requires AllLive(h, xs)
    ensures AllLive(h, Order(xs, e))
    ensures Entries(h, Order(xs, e)) == Order(Entries(h, xs), e)
  {
    if e == Tail {
      var os := Order(xs, e);
      assert forall i :: 0 <= i < |os| ==> os[i] == xs[|xs| - 1 - i];
    }
  }

  /** The node `h[a]` after the callback `var->entry = f(var->entry)`, for nodes already visited. */
  function Updated<T>(h: Heap<T>, f: T -> T, visited: seq<Addr>, a: Addr): (r: Node<T>)
    requires a in h
  {
    if a in visited then h[a].(entry := f(h[a].entry)) else h[a]
  }

  /** `h` is `h0` after the callback has run on the nodes `visited` and on no other. */
  ghost predicate VisitedIn<T>(h0: Heap<T>, h: Heap<T>, f: T -> T, visited: seq<Addr>) {
    && h.Keys == h0.Keys
    && forall a :: a in h0 ==> h[a] == Updated(h0, f, visited, a)
  }

  /** One step of the plain iterator: the callback updates node `os[k]`, whose link `d` then leads to the next one. */
  lemma ForEachStep<T>(h0: Heap<T>, os: seq<Addr>, d: Link, f: T -> T, h: Heap<T>, k: int)
    requires Chain(h0, if os == [] then Null else At(os[0]), d, os)
    requires 0 <= k < |os| && VisitedIn(h0, h, f, os[..k])
    ensures var h' := h[os[k] := h[os[k]].(entry := f(h[os[k]].entry))];
            && VisitedIn(h0, h', f, os[..k + 1])
            && GetLink(h'[os[k]], d) == After(os, k)
  {
    var a := os[k];
    var h' := h[a := h[a].(entry := f(h[a].entry))];
    assert GetLink(h'[a], d) == After(os, k);
  }

  /** Once every node has been visited, the list is valid with every entry mapped by `f`, and nothing else changed. */
  lemma ForEachDone<T>(s: State<T>, ns: seq<Addr>, e: End, f: T -> T, h: Heap<T>)
    requires Valid(s, ns) && VisitedIn(s.heap, h, f, Order(ns, e))
    ensures Valid(State(h, s.list, s.destroyed), ns)
    ensures Values(State(h, s.list, s.destroyed), ns) == MapSeq(f, Values(s, ns))
    ensures forall a :: a in s.heap && a !in ns ==> h[a] == s.heap[a]
  {
    OrderHas(ns, e);
    forall i | 0 <= i < |ns|
      ensures h[ns[i]] == s.heap[ns[i]].(entry := f(s.heap[ns[i]].entry))
    {
      assert ns[i] in Order(ns, e);
    }
  }

  /**
   The loop of `_LIST_FOR_EACH`: starting at `start`, run the callback
   `var->entry = f(var->entry)` and follow link `d` until NULL. Along a chain it
   visits the chain's nodes in order, each once, and updates exactly their entries.
   */
  method Traverse<T>(h0: Heap<T>, start: Ptr, d: Link, ghost os: seq<Addr>, f: T -> T)
    returns (h: Heap<T>, visited: seq<Addr>)
    requires Chain(h0, start, d, os)
    ensures visited == os
    ensures VisitedIn(h0, h, f, os)
  {
    h := h0;
    var v := start;
    visited := [];
    ghost var k := 0;
    while v != Null
      invariant 0 <= k <= |os| && visited == os[..k]
      invariant v == (if k < |os| then At(os[k]) else Null)
      invariant VisitedIn(h0, h, f, visited)
      decreases |os| - k
    {
      var a := v.addr;
      ForEachStep(h0, os, d, f, h, k);
      PrefixSnoc(os, k);
      h := h[a := h[a].(entry := f(h[a].entry))];
      visited := visited + [a];
      v := GetLink(h[a], d);
      k := k + 1;
    }
    assert visited == os;
  }

  /**
   `_LIST_FOR_EACH(list, var, sentinal, direction, callback)` with the callback
   `var->entry = f(var->entry)`. `LIST_FOR_EACH` is `sentinal = Head` (following
   `next`), `LIST_FOR_EACH_REV` is `sentinal = Tail` (following `prev`). Returns
   the list afterwards and the nodes `var` pointed at, in order: every node once,
   from the chosen end; each entry is replaced by `f` of it, and nothing else changes.
   */
  method ForEach<T>(s: State<T>, ghost ns: seq<Addr>, sentinal: End, f: T -> T)
    returns (s': State<T>, visited: seq<Addr>)
    requires Valid(s, ns)
    ensures visited == Order(ns, sentinal)
    ensures Valid(s', ns)
    ensures Values(s', ns) == MapSeq(f, Values(s, ns))
    ensures s'.list == s.list && s'.destroyed == s.destroyed
    ensures s'.heap.Keys == s.heap.Keys
    ensures forall a :: a in s.heap && a !in ns ==> s'.heap[a] == s.heap[a]
  {
    ValidChain(s, ns, sentinal);
    var h;
    h, visited := Traverse(s.heap, GetEnd(s.list, sentinal), Away(sentinal), Order(ns, sentinal), f);
    ForEachDone(s, ns, sentinal, f, h);
    s' := State(h, s.list, s.destroyed);
  }

  /** `xs` without the element at end `e`: the first one for `Head`, the last one for `Tail`. */
  function Rest<X>(xs: seq<X>, e: End): (r: seq<X>)
    requires |xs| > 0
    ensures Order(r, e) == Order(xs, e)[1..]
  {
    match e
    case Head => xs[1..]
    case Tail =>
      var r := xs[..|xs| - 1];
      assert Reverse(r) == Reverse(xs)[1..];
      r
  }

  /**
   Deleting the node at end `e` of a non-empty valid list, as the safe iterator's
   callback does on its first node: the rest stays a valid list, the destructor
   log gains that node's entry when a destructor is set, only that node is freed,
   no entry changes and no node outside the list is touched.
   */
  lemma DeleteEnd<T>(s: State<T>, ns: seq<Addr>, e: End)
    requires Valid(s, ns) && |ns| > 0
    ensures Order(ns, e)[0] == ns[EndAt(|ns|, e)]
    ensures Unlinkable(s.heap, Order(ns, e)[0])
    ensures DeletedEnd(s, ns, e, Delete(s, Order(ns, e)[0]))
  {
    var i := EndAt(|ns|, e);
    DeleteSpec(s, ns, i);
    DeleteFrees(s, ns, i);
    assert Without(ns, i) == Rest(ns, e);
  }

  /** `s'` is `s` once the node at end `e` of the valid list `ns` has been deleted. */
  ghost predicate DeletedEnd<T>(s: State<T>, ns: seq<Addr>, e: End, s': State<T>)
    requires |ns| > 0 && AllLive(s.heap, ns)
  {
    var a := Order(ns, e)[0];
    && a in s.heap
    && Valid(s', Rest(ns, e))
    && s'.list.hasDestructor == s.list.hasDestructor
    && s'.destroyed == (if s.list.hasDestructor then s.destroyed + [s.heap[a].entry] else s.destroyed)
    && s'.heap.Keys == s.heap.Keys - {a}
    && EntriesKept(s.heap, s'.heap)
    && OthersUnchanged(s.heap, s'.heap, ns)
  }

  /**
   The state of the safe iterator over `ns` from end `e` after `k` steps of
   deleting the current node: `cur` is a valid list of the nodes not yet visited,
   which are the rest of the walk; the visited nodes are freed, their entries
   logged in order when a destructor is set; no entry changed, and nodes outside
   the list are untouched.
   */
  ghost predicate Deleting<T>(s: State<T>, ns: seq<Addr>, e: End, cur: State<T>, rest: seq<Addr>, k: int) {
    var os := Order(ns, e);
    && 0 <= k <= |os|
    && AllLive(s.heap, os)
    && Valid(cur, rest)
    && Order(rest, e) == os[k..]
    && cur.list.hasDestructor == s.list.hasDestructor
    && cur.destroyed == (if s.list.hasDestructor then s.destroyed + Entries(s.heap, os[..k]) else s.destroyed)
    && (forall a :: a in cur.heap <==> a in s.heap && a !in os[..k])
    && EntriesKept(s.heap, cur.heap)
    && (forall a :: a in s.heap && a !in ns ==> a in cur.heap && cur.heap[a] == s.heap[a])
  }

  /** Before the first step nothing has been visited. */
  lemma DeletingStart<T>(s: State<T>, ns: seq<Addr>, e: End)
    requires Valid(s, ns)
    ensures |Order(ns, e)| == |ns|
    ensures Deleting(s, ns, e, s, ns, 0)
  {
    var os := Order(ns, e);
    assert AllLive(s.heap, os) by {
      EntriesOrder(s.heap, ns, e);
    }
    assert os[..0] == [] && os[0..] == os;
    assert s.destroyed == (if s.list.hasDestructor then s.destroyed + Entries(s.heap, os[..0]) else s.destroyed) by {
      assert Entries(s.heap, os[..0]) == [];
    }
    DeletingIntro(s, ns, e, s, ns, 0);
  }

  /** In the safe iterator, the node `v` about to be visited is live and its link leads to the one after it in the walk. */
  lemma DeletingNext<T>(s: State<T>, ns: seq<Addr>, e: End, cur: State<T>, rest: seq<Addr>, k: int, v: Ptr)
    requires Deleting(s, ns, e, cur, rest, k)
    requires v == (if k < |ns| then At(Order(ns, e)[k]) else Null)
    ensures Live(cur.heap, v)
    ensures v.At? ==> GetLink(cur.heap[v.addr], Away(e)) == After(Order(ns, e), k)
  {
    if v.At? {
      var os := Order(ns, e);
      ValidChain(cur, rest, e);
      assert Order(rest, e)[0] == os[k];
      assert k + 1 < |os| ==> Order(rest, e)[1] == os[k + 1];
    }
  }

  /** One step of the safe iterator: deleting the current node `Order(ns, e)[k]` keeps `Deleting` with one more node visited. */
  lemma DeletingStep<T>(s: State<T>, ns: seq<Addr>, e: End, cur: State<T>, rest: seq<Addr>, k: int, cur': State<T>)
    requires Deleting(s, ns, e, cur, rest, k) && k < |ns|
    requires |rest| > 0 && DeletedEnd(cur, rest, e, cur')
    ensures Deleting(s, ns, e, cur', Rest(rest, e), k + 1)
  {
    WalkStep(s.heap, ns, e, k, cur.heap, cur'.heap, rest, Rest(rest, e),
             s.destroyed, cur.destroyed, cur'.destroyed, s.list.hasDestructor);
    DeletingIntro(s, ns, e, cur', Rest(rest, e), k + 1);
  }

  /**
   The memory side of one step of the safe iterator, over the heaps alone: the
   heap `h` after `k` steps loses the current node `Order(ns, e)[k]` and becomes
   `h'`, the log gains its entry, and the facts `Deleting` keeps about the
   freed nodes, the entries, the log and the nodes outside the list move on to
   `k + 1`.
   */
  lemma WalkStep<T>(h0: Heap<T>, ns: seq<Addr>, e: End, k: int, h: Heap<T>, h': Heap<T>,
                    rest: seq<Addr>, rest': seq<Addr>, log0: seq<T>, log: seq<T>, log': seq<T>, on: bool)
    requires 0 <= k < |Order(ns, e)| && AllLive(h0, Order(ns, e))
    requires |rest| > 0 && Order(rest, e) == Order(ns, e)[k..] && Order(rest', e) == Order(rest, e)[1..]
    requires forall a :: a in h <==> a in h0 && a !in Order(ns, e)[..k]
    requires h'.Keys == h.Keys - {Order(rest, e)[0]}
    requires EntriesKept(h0, h) && EntriesKept(h, h')
    requires forall a :: a in h0 && a !in ns ==> a in h && h[a] == h0[a]
    requires OthersUnchanged(h, h', rest)
    requires log == (if on then log0 + Entries(h0, Order(ns, e)[..k]) else log0)
    requires Order(rest, e)[0] in h && log' == (if on then log + [h[Order(rest, e)[0]].entry] else log)
    ensures Order(rest', e) == Order(ns, e)[k + 1..]
    ensures forall a :: a in h' <==> a in h0 && a !in Order(ns, e)[..k + 1]
    ensures EntriesKept(h0, h')
    ensures forall a :: a in h0 && a !in ns ==> a in h' && h'[a] == h0[a]
    ensures log' == (if on then log0 + Entries(h0, Order(ns, e)[..k + 1]) else log0)
  {
    var os := Order(ns, e);
    assert Order(rest, e)[0] == os[k];
    PrefixSnoc(os, k);
    LogStep(h0, os, k, log0, log, log', on);
    RestIn(ns, rest, e, k);
  }

  /** The nodes still to visit are nodes of the list. */
  lemma RestIn<X>(ns: seq<X>, rest: seq<X>, e: End, k: int)
    requires 0 <= k <= |Order(ns, e)| && Order(rest, e) == Order(ns, e)[k..]
    ensures forall b :: b in rest ==> b in ns
  {
    OrderHas(ns, e);
    OrderHas(rest, e);
  }

  /** Establishes `Deleting` from its parts. */
  lemma DeletingIntro<T>(s: State<T>, ns: seq<Addr>, e: End, cur: State<T>, rest: seq<Addr>, k: int)
    requires 0 <= k <= |Order(ns, e)| && AllLive(s.heap, Order(ns, e))
    requires Valid(cur, rest) && Order(rest, e) == Order(ns, e)[k..]
    requires cur.list.hasDestructor == s.list.hasDestructor
    requires cur.destroyed == (if s.list.hasDestructor then s.destroyed + Entries(s.heap, Order(ns, e)[..k]) else s.destroyed)
    requires forall a :: a in cur.heap <==> a in s.heap && a !in Order(ns, e)[..k]
    requires EntriesKept(s.heap, cur.heap)
    requires forall a :: a in s.heap && a !in ns ==> a in cur.heap && cur.heap[a] == s.heap[a]
    ensures Deleting(s, ns, e, cur, rest, k)
  {
  }

  /** The destructor log gains the entry of the node visited at step `k`. */
  lemma LogStep<T>(h: Heap<T>, os: seq<Addr>, k: int, log0: seq<T>, log: seq<T>, log': seq<T>, on: bool)
    requires AllLive(h, os) && 0 <= k < |os|
    requires log == (if on then log0 + Entries(h, os[..k]) else log0)
    requires log' == (if on then log + [h[os[k]].entry] else log)
    ensures log' == (if on then log0 + Entries(h, os[..k + 1]) else log0)
  {
    PrefixSnoc(os, k);
    EntriesConcat(h, os[..k], [os[k]]);
  }

  /** When the walk is over, nothing is left of the list, and exactly its nodes have been freed. */
  lemma DeletingDone<T>(s: State<T>, ns: seq<Addr>, e: End, cur: State<T>, rest: seq<Addr>)
    requires AllLive(s.heap, ns) && Deleting(s, ns, e, cur, rest, |ns|)
    ensures rest == []
    ensures cur.list == s.list.(head := Null, tail := Null, length := 0)
    ensures cur.destroyed == (if s.list.hasDestructor then s.destroyed + Order(Values(s, ns), e) else s.destroyed)
    ensures forall a :: a in cur.heap <==> a in s.heap && a !in ns
    ensures forall a :: a in cur.heap ==> cur.heap[a] == s.heap[a]
  {
    var os := Order(ns, e);
    assert rest == [] by {
      assert |Order(rest, e)| == |rest|;
    }
    assert cur.destroyed == (if s.list.hasDestructor then s.destroyed + Order(Values(s, ns), e) else s.destroyed) by {
      assert os[..|ns|] == os;
      EntriesOrder(s.heap, ns, e);
    }
    FreedAll(s.heap, ns, e, cur.heap);
  }

  /** Once the walk has visited every node, the heap has lost exactly the list's nodes and kept every other one. */
  lemma FreedAll<T>(h0: Heap<T>, ns: seq<Addr>, e: End, h: Heap<T>)
    requires |Order(ns, e)| == |ns|
    requires forall a :: a in h <==> a in h0 && a !in Order(ns, e)[..|ns|]
    requires forall a :: a in h0 && a !in ns ==> a in h && h[a] == h0[a]
    ensures forall a :: a in h <==> a in h0 && a !in ns
    ensures forall a :: a in h ==> h[a] == h0[a]
  {
    var os := Order(ns, e);
    assert os[..|ns|] == os;
    OrderHas(ns, e);
  }

  /**
   The callback `{ LIST_DEL(list, var); }` run on the node `var` at end `e` of
   the remaining list `rest`.
   */
  method DeleteCallback<T>(cur: State<T>, ghost rest: seq<Addr>, e: End, node: Addr) returns (cur': State<T>)
    requires Valid(cur, rest) && |rest| > 0 && node == Order(rest, e)[0]
    ensures DeletedEnd(cur, rest, e, cur')
  {
    DeleteEnd(cur, rest, e);
    cur' := Delete(cur, node);
  }

  /**
   `_LIST_FOR_EACH_SAFE(list, var, temp, sentinal, direction, callback)` with the
   callback `LIST_DEL(list, var)`: `temp` is read from `var` before the callback
   frees it. `LIST_FOR_EACH_SAFE` is `sentinal = Head`, `LIST_FOR_EACH_REV_SAFE`
   is `sentinal = Tail`. Every node of the list is visited once, in order from
   that end; afterwards the handle has no head, no tail and length 0, the
   destructor has been called on every value in visiting order (when one is
   set), exactly the list's nodes are freed and nothing else changes.
   */
  method ForEachSafeDelete<T>(s: State<T>, ghost ns: seq<Addr>, sentinal: End)
    returns (s': State<T>, visited: seq<Addr>)
    requires Valid(s, ns)
    ensures visited == Order(ns, sentinal)
    ensures Valid(s', [])
    ensures s'.list == s.list.(head := Null, tail := Null, length := 0)
    ensures s'.destroyed == (if s.list.hasDestructor then s.destroyed + Order(Values(s, ns), sentinal) else s.destroyed)
    ensures forall a :: a in s'.heap <==> a in s.heap && a !in ns
    ensures forall a :: a in s'.heap ==> s'.heap[a] == s.heap[a]
  {
    ghost var rest;
    s', rest, visited := SafeDeleteLoop(s, ns, sentinal);
    DeletingDone(s, ns, sentinal, s', rest);
  }

  /**
   The safe iterator after `k` steps: `Deleting` holds, `visited` lists the nodes
   `var` pointed at so far, `var` is the next node of the walk (NULL at its end)
   and `temp` has already been read from it.
   */
  ghost predicate SafeAt<T>(s: State<T>, ns: seq<Addr>, e: End, cur: State<T>, rest: seq<Addr>, k: int,
                            visited: seq<Addr>, v: Ptr, temp: Ptr) {
    var os := Order(ns, e);
    && Deleting(s, ns, e, cur, rest, k)
    && |os| == |ns|
    && visited == os[..k]
    && v == (if k < |os| then At(os[k]) else Null)
    && (k < |os| ==> temp == After(os, k))
  }

  /**
   One turn of the `_LIST_FOR_EACH_SAFE` loop with the callback `LIST_DEL(list, var)`:
   run the callback on `var`, then `var = temp` and, when that is not NULL,
   `temp = var->direction`.
   */
  method SafeDeleteTurn<T>(s: State<T>, ghost ns: seq<Addr>, sentinal: End, cur: State<T>, ghost rest: seq<Addr>,
                           ghost k: int, visited: seq<Addr>, v: Ptr, temp: Ptr)
    returns (cur': State<T>, ghost rest': seq<Addr>, visited': seq<Addr>, v': Ptr, temp': Ptr)
    requires SafeAt(s, ns, sentinal, cur, rest, k, visited, v, temp) && v != Null
    ensures k < |ns| && SafeAt(s, ns, sentinal, cur', rest', k + 1, visited', v', temp')
  {
    ghost var os := Order(ns, sentinal);
    assert |rest| > 0 && Order(rest, sentinal)[0] == v.addr by {
      assert |Order(rest, sentinal)| == |rest|;
    }
    cur' := DeleteCallback(cur, rest, sentinal, v.addr);
    DeletingStep(s, ns, sentinal, cur, rest, k, cur');
    PrefixSnoc(os, k);
    rest' := Rest(rest, sentinal);
    visited' := visited + [v.addr];
    v' := temp;
    temp' := temp;
    DeletingNext(s, ns, sentinal, cur', rest', k + 1, v');
    if v' != Null {
      temp' := GetLink(cur'.heap[v'.addr], Away(sentinal));
    }
  }

  /** The start of `_LIST_FOR_EACH_SAFE`: `var = list->sentinal`, then `temp = var->direction` when `var` is not NULL. */
  method SafeDeleteStart<T>(s: State<T>, ghost ns: seq<Addr>, sentinal: End) returns (v: Ptr, temp: Ptr)
    requires Valid(s, ns)
    ensures SafeAt(s, ns, sentinal, s, ns, 0, [], v, temp)
  {
    DeletingStart(s, ns, sentinal);
    v := GetEnd(s.list, sentinal);
    assert v == (if 0 < |ns| then At(Order(ns, sentinal)[0]) else Null) by {
      ValidChain(s, ns, sentinal);
    }
    temp := Null;
    DeletingNext(s, ns, sentinal, s, ns, 0, v);
    if v != Null {
      temp := GetLink(s.heap[v.addr], Away(sentinal));
    }
  }

  /** The loop of `_LIST_FOR_EACH_SAFE` with the callback `LIST_DEL(list, var)`, run to the end of the walk. */
  method SafeDeleteLoop<T>(s: State<T>, ghost ns: seq<Addr>, sentinal: End)
    returns (cur: State<T>, ghost rest: seq<Addr>, visited: seq<Addr>)
    requires Valid(s, ns)
    ensures Deleting(s, ns, sentinal, cur, rest, |ns|)
    ensures visited == Order(ns, sentinal)
  {
    ghost var k := 0;
    rest := ns;
    cur := s;
    var v, temp := SafeDeleteStart(s, ns, sentinal);
    visited := [];
    while v != Null
      invariant 0 <= k <= |ns|
      // Compared with `true` so that the invariant is checked as the one fact
      // SafeDeleteStart and SafeDeleteTurn establish, rather than split into the
      // conjuncts of SafeAt and Deleting.
      invariant SafeAt(s, ns, sentinal, cur, rest, k, visited, v, temp) == true
      decreases |ns| - k
    {
      cur, rest, visited, v, temp := SafeDeleteTurn(s, ns, sentinal, cur, rest, k, visited, v, temp);
      k := k + 1;
    }
    assert k == |ns|;
    assert visited == Order(ns, sentinal)[..|ns|];
  }

  /**
   `LIST_DESTROY(list)`: the safe forward iteration whose callback deletes the
   current node. The list is left empty and reusable, the destructor (when set)
   has been called once on each value, head to tail, and only the list's nodes
   are freed.
   */
  method Destroy<T>(s: State<T>, ghost ns: seq<Addr>) returns (s': State<T>)
    requires Valid(s, ns)
    ensures Valid(s', [])
    ensures s'.list == s.list.(head := Null, tail := Null, length := 0)
    ensures s'.destroyed == (if s.list.hasDestructor then s.destroyed + Values(s, ns) else s.destroyed)
    ensures forall a :: a in s'.heap <==> a in s.heap && a !in ns
    ensures forall a :: a in s'.heap ==> s'.heap[a] == s.heap[a]
  {
    var visited;
    s', visited := ForEachSafeDelete(s, ns, Head);
  }
}



=== FILE: laws.dfy ===
/**
 Laws that relate the list operations to each other: a list state is fixed by
 its values and the memory around it, and popping from the end just added to
 undoes the add exactly, restoring every node, the handle and the log.
 */
module ListLaws {
  import opened Memory
  import opened ListModel
  import opened ListOps

  /**
   Two valid states over the same nodes, with the same values, the same
   destructor flag and log, the same allocated addresses and the same nodes
   outside the list, are the same state.
   */
  lemma SameState<T>(s: State<T>, s': State<T>, ns: seq<Addr>)
    requires Valid(s, ns) && Valid(s', ns) && Values(s', ns) == Values(s, ns)
    requires s'.list.hasDestructor == s.list.hasDestructor && s'.destroyed == s.destroyed
    requires s'.heap.Keys == s.heap.Keys
    requires forall a :: a in s.heap && a !in ns ==> s'.heap[a] == s.heap[a]
    ensures s' == s
  {
    forall a | a in s.heap
      ensures s'.heap[a] == s.heap[a]
    {
      if a in ns {
        var i :| 0 <= i < |ns| && ns[i] == a;
        assert Values(s', ns)[i] == Values(s, ns)[i];
      }
    }
    assert s'.heap == s.heap;
  }

  /**
   `LIST_POPB` right after `LIST_APPEND(list, x)` returns `x` and gives back the
   state before the append: the old tail's `next` is NULL again and the new node
   is freed.
   */
  lemma AppendPopBack<T>(s: State<T>, ns: seq<Addr>, x: T, newNode: Addr)
    requires Valid(s, ns) && newNode !in s.heap && |ns| < SIZE_MAX
    ensures Live(s.heap, s.list.tail)
    ensures var s1 := Append(s, x, newNode).0;
            && s1.list.tail.At? && Unlinkable(s1.heap, s1.list.tail.addr)
            && PopBack(s1) == (s, x)
  {
    AppendSpec(s, ns, x, newNode);
    var s1 := Append(s, x, newNode).0;
    PopBackSpec(s1, ns + [newNode]);
    PoppedBackAfterAppend(s, ns, x, newNode, s1, PopBack(s1).0, PopBack(s1).1);
  }

  /**
   The state and value that `LIST_POPB` leaves, described by its contract, after
   a state that `LIST_APPEND(list, x)` left, described by its contract: the value
   is `x` and the state is the one before the append.
   */
  lemma PoppedBackAfterAppend<T>(s: State<T>, ns: seq<Addr>, x: T, newNode: Addr, s1: State<T>, s2: State<T>, v: T)
    requires Valid(s, ns) && newNode !in s.heap
    requires AllLive(s1.heap, ns + [newNode]) && Values(s1, ns + [newNode]) == Values(s, ns) + [x]
    requires s1.list.hasDestructor == s.list.hasDestructor && s1.destroyed == s.destroyed
    requires s1.heap.Keys == s.heap.Keys + {newNode} && OthersUnchanged(s.heap, s1.heap, ns)
    requires var ns1 := ns + [newNode];
             && v == Values(s1, ns1)[|ns1| - 1]
             && Valid(s2, ns1[..|ns1| - 1]) && Values(s2, ns1[..|ns1| - 1]) == Values(s1, ns1)[..|ns1| - 1]
             && s2.list.hasDestructor == s1.list.hasDestructor && s2.destroyed == s1.destroyed
             && s2.heap.Keys == s1.heap.Keys - {ns1[|ns1| - 1]}
             && OthersUnchanged(s1.heap, s2.heap, ns1)
    ensures s2 == s && v == x
  {
    var ns1 := ns + [newNode];
    assert ns1[..|ns1| - 1] == ns;
    assert v == x by {
      assert Values(s1, ns1)[|ns|] == (Values(s, ns) + [x])[|ns|];
    }
    assert Values(s2, ns) == Values(s, ns) by {
      assert Values(s1, ns1)[..|ns|] == (Values(s, ns) + [x])[..|ns|];
    }
    SameState(s, s2, ns);
  }

  /**
   `LIST_POPF` right after `LIST_PREPEND(list, x)` returns `x` and gives back the
   state before the prepend.
   */
  lemma PrependPopFront<T>(s: State<T>, ns: seq<Addr>, x: T, newNode: Addr)
    requires Valid(s, ns) && newNode !in s.heap && |ns| < SIZE_MAX
    ensures Live(s.heap, s.list.head)
    ensures var s1 := Prepend(s, x, newNode).0;
            && s1.list.head.At? && Unlinkable(s1.heap, s1.list.head.addr)
            && PopFront(s1) == (s, x)
  {
    PrependSpec(s, ns, x, newNode);
    var s1 := Prepend(s, x, newNode).0;
    PopFrontSpec(s1, [newNode] + ns);
    PoppedFrontAfterPrepend(s, ns, x, newNode, s1, PopFront(s1).0, PopFront(s1).1);
  }

  /**
   The state and value that `LIST_POPF` leaves, described by its contract, after
   a state that `LIST_PREPEND(list, x)` left, described by its contract: the
   value is `x` and the state is the one before the prepend.
   */
  lemma PoppedFrontAfterPrepend<T>(s: State<T>, ns: seq<Addr>, x: T, newNode: Addr, s1: State<T>, s2: State<T>, v: T)
    requires Valid(s, ns) && newNode !in s.heap
    requires AllLive(s1.heap, [newNode] + ns) && Values(s1, [newNode] + ns) == [x] + Values(s, ns)
    requires s1.list.hasDestructor == s.list.hasDestructor && s1.destroyed == s.destroyed
    requires s1.heap.Keys == s.heap.Keys + {newNode} && OthersUnchanged(s.heap, s1.heap, ns)
    requires var ns1 := [newNode] + ns;
             && v == Values(s1, ns1)[0]
             && Valid(s2, ns1[1..]) && Values(s2, ns1[1..]) == Values(s1, ns1)[1..]
             && s2.list.hasDestructor == s1.list.hasDestructor && s2.destroyed == s1.destroyed
             && s2.heap.Keys == s1.heap.Keys - {ns1[0]}
             && OthersUnchanged(s1.heap, s2.heap, ns1)
    ensures s2 == s && v == x
  {
    var ns1 := [newNode] + ns;
    assert ns1[1..] == ns;
    assert v == x by {
      assert Values(s1, ns1)[0] == ([x] + Values(s, ns))[0];
    }
    assert Values(s2, ns) == Values(s, ns) by {
      assert Values(s1, ns1)[1..] == ([x] + Values(s, ns))[1..];
    }
    SameState(s, s2, ns);
  }
}

=== FILE: list.dfy ===
/**
 The list handle (`struct list_sentinal_T`) and the invariant that ties it to the
 chain of nodes in the heap. The chain is described by a ghost sequence of node
 addresses `ns`, head first; `Valid(s, ns)` says the heap links and the handle
 agree with it.
 */
module ListModel {
  import opened Memory

  /** The two ends of a list, as the macros name them in their `sentinal`/`top`/`bottom` arguments. */
  datatype End = Head | Tail

  /**
   `struct list_sentinal_T`. The destructor function pointer is modelled by whether
   it is set; its calls are recorded in `State.destroyed`.
   */
  datatype Sentinel = Sentinel(head: Ptr, tail: Ptr, length: SizeT, hasDestructor: bool)

  /**
   One list and the memory around it: the heap (which may hold other nodes too),
   the handle, and the log of the values the destructor was called on, oldest first.
   */
  datatype State<T> = State(heap: Heap<T>, list: Sentinel, destroyed: seq<T>)

  function Other(e: End): (r: End) {
    match e
    case Head => Tail
    case Tail => Head
  }

  /** The link that leads from end `e` into the list: `next` from the head, `prev` from the tail. */
  function Away(e: End): (r: Link) {
    match e
    case Head => Next
    case Tail => Prev
  }

  /** `list->head` or `list->tail`. */
  function GetEnd(l: Sentinel, e: End): (r: Ptr) {
    match e
    case Head => l.head
    case Tail => l.tail
  }

  /** `list->head = p` or `list->tail = p`. */
  function SetEnd(l: Sentinel, e: End, p: Ptr): (r: Sentinel) {
    match e
    case Head => l.(head := p)
    case Tail => l.(tail := p)
  }

  /** The nodes `ns` (head first) in the order a walk from end `e` meets them. */
  function Order<X>(ns: seq<X>, e: End): (r: seq<X>) {
    match e
    case Head => ns
    case Tail => Reverse(ns)
  }

  /**
   The list invariant: `ns` lists the list's nodes from head to tail; they are
   distinct and live, `length` counts them, `head`/`tail` point at the first and
   last (NULL when there are none), each node's `next` and `prev` point at its
   neighbours in `ns`, and the first node's `prev` and the last node's `next` are NULL.
   */
  ghost predicate Valid<T>(s: State<T>, ns: seq<Addr>) {
    && Distinct(ns)
    && AllLive(s.heap, ns)
    && s.list.length == |ns|
    && s.list.head == (if ns == [] then Null else At(ns[0]))
    && s.list.tail == (if ns == [] then Null else At(ns[|ns| - 1]))
    && (forall i :: 0 <= i < |ns| ==> s.heap[ns[i]].next == After(ns, i))
    && (forall i :: 0 <= i < |ns| ==> s.heap[ns[i]].prev == Before(ns, i))
  }

  /** Establishes `Valid` from its parts, keeping the caller's context out of the final step. */
  lemma ValidIntro<T>(s: State<T>, ns: seq<Addr>)
    requires Distinct(ns) && AllLive(s.heap, ns) && s.list.length == |ns|
    requires s.list.head == (if ns == [] then Null else At(ns[0]))
    requires s.list.tail == (if ns == [] then Null else At(ns[|ns| - 1]))
    requires forall i :: 0 <= i < |ns| ==> s.heap[ns[i]].next == After(ns, i)
    requires forall i :: 0 <= i < |ns| ==> s.heap[ns[i]].prev == Before(ns, i)
    ensures Valid(s, ns)
  {
  }

  /** A pointer to the node after position `i` of `xs`, NULL after the last one. */
  function After(xs: seq<Addr>, i: int): (r: Ptr)
    requires 0 <= i < |xs|
  {
    if i + 1 < |xs| then At(xs[i + 1]) else Null
  }

  /** A pointer to the node before position `i` of `xs`, NULL before the first one. */
  function Before(xs: seq<Addr>, i: int): (r: Ptr)
    requires 0 <= i < |xs|
  {
    if i > 0 then At(xs[i - 1]) else Null
  }

  /** The values stored in the list, head to tail. */
  function Values<T>(s: State<T>, ns: seq<Addr>): (r: seq<T>)
    requires AllLive(s.heap, ns)
  {
    Entries(s.heap, ns)
  }

  /**
   The chain seen from one end: `start` is the first of `os` (NULL when `os` is
   empty), and following link `d` from each node of `os` leads to the next one,
   and from the last one to NULL.
   */
  ghost predicate Chain<T>(h: Heap<T>, start: Ptr, d: Link, os: seq<Addr>) {
    && Distinct(os)
    && AllLive(h, os)
    && start == (if os == [] then Null else At(os[0]))
    && (forall j :: 0 <= j < |os| ==> GetLink(h[os[j]], d) == After(os, j))
  }

  /** Nodes outside `ns` are neither freed nor changed. */
  ghost predicate OthersUnchanged<T>(h: Heap<T>, h': Heap<T>, ns: seq<Addr>) {
    forall a :: a in h && a !in ns ==> a in h' && h'[a] == h[a]
  }

  /**
   A valid list read from either end is a chain: from the head along `next` in
   `ns` order, from the tail along `prev` in reverse order.
   */
  lemma ValidChain<T>(s: State<T>, ns: seq<Addr>, e: End)
    requires Valid(s, ns)
    ensures Chain(s.heap, GetEnd(s.list, e), Away(e), Order(ns, e))
    ensures |Order(ns, e)| == |ns|
  {
    if e == Tail {
      var os := Order(ns, e);
      forall i, j | 0 <= i < j < |os|
        ensures os[i] != os[j]
      {
        assert os[i] == ns[|ns| - 1 - i] && os[j] == ns[|ns| - 1 - j];
      }
      forall j | 0 <= j < |os|
        ensures GetLink(s.heap[os[j]], Prev) == After(os, j)
      {
        var i := |ns| - 1 - j;
        assert os[j] == ns[i];
        if j + 1 < |os| {
          assert os[j + 1] == ns[i - 1];
        }
      }
      assert Chain(s.heap, GetEnd(s.list, e), Away(e), os);
    }
  }

  /** A list is empty exactly when its handle has no head and no tail; only the head has no `prev`, only the tail no `next`. */
  lemma EmptyIffNoEnds<T>(s: State<T>, ns: seq<Addr>)
    requires Valid(s, ns)
    ensures s.list.head == Null <==> s.list.length == 0
    ensures s.list.tail == Null <==> s.list.length == 0
    ensures forall i :: 0 <= i < |ns| ==> (s.heap[ns[i]].prev == Null <==> s.list.head == At(ns[i]))
    ensures forall i :: 0 <= i < |ns| ==> (s.heap[ns[i]].next == Null <==> s.list.tail == At(ns[i]))
  {
    forall i | 0 <= i < |ns|
      ensures s.heap[ns[i]].prev == Null <==> s.list.head == At(ns[i])
      ensures s.heap[ns[i]].next == Null <==> s.list.tail == At(ns[i])
    {
      assert s.list.head == At(ns[i]) ==> i == 0;
      assert s.list.tail == At(ns[i]) ==> i == |ns| - 1;
    }
  }

  /**
   The handle and the heap determine the chain: two node sequences that both make
   a state valid are the same, so the ghost sequence adds no freedom to the model.
   */
  lemma NodesDetermined<T>(s: State<T>, ns: seq<Addr>, ms: seq<Addr>)
    requires Valid(s, ns) && Valid(s, ms)
    ensures ns == ms
  {
    forall k | 0 <= k < |ns|
      ensures ns[k] == ms[k]
    {
      SameFrom(s, ns, ms, k);
    }
  }

  /** Following `next` from the same head reaches the same node at every position. */
  lemma {:induction false} SameFrom<T>(s: State<T>, ns: seq<Addr>, ms: seq<Addr>, k: int)
    requires Valid(s, ns) && Valid(s, ms) && 0 <= k < |ns|
    ensures |ms| == |ns| && ns[k] == ms[k]
    decreases k
  {
    if k > 0 {
      SameFrom(s, ns, ms, k - 1);
      assert s.heap[ns[k - 1]].next == At(ns[k]);
    }
  }
}

=== FILE: list_ops.dfy ===
/**
 The O(1) operations of the list: the shared add routine behind append and
 prepend, remove (unlink without freeing), delete (remove, destructor, free) and
 pop from either end. Each function performs the macro's reads and writes in
 the macro's order; the lemmas after it state what that does to a valid list.
 */
module ListOps {
  import opened Memory
  import opened ListModel

  /**
   `_LIST_ADD(list, elem, top, bottom, direction, reverse)`: link a new node
   holding `elem` beyond the `top` end. Append is `top = Tail` (bottom `head`,
   direction `next`, reverse `prev`), prepend is `top = Head`. `newNode` is the
   address `malloc` returned. The result is the list and the value of `++length`.
   */
  function Add<T>(s: State<T>, elem: T, newNode: Addr, top: End): (r: (State<T>, SizeT))
    requires newNode !in s.heap
    requires Live(s.heap, GetEnd(s.list, top))
    ensures r.0.heap.Keys == s.heap.Keys + {newNode} && r.0.heap[newNode].entry == elem
    ensures GetEnd(r.0.list, top) == At(newNode)
    ensures r.0.list.length == Inc(s.list.length) && r.1 == r.0.list.length
    ensures r.0.list.hasDestructor == s.list.hasDestructor && r.0.destroyed == s.destroyed
  {
    var bottom := Other(top);
    var direction := Away(bottom);
    var reverse := Away(top);
    var h0 := s.heap[newNode := Node(Null, Null, elem)];
    var l0 := if GetEnd(s.list, bottom) == Null then SetEnd(s.list, bottom, At(newNode)) else s.list;
    var t := GetEnd(l0, top);
    var h1 :=
      if t == Null then h0
      else
        var ha := h0[t.addr := SetLink(h0[t.addr], direction, At(newNode))];
        ha[newNode := SetLink(ha[newNode], reverse, t)];
    var l1 := SetEnd(l0, top, At(newNode));
    var l2 := l1.(length := Inc(l1.length));
    (State(h1, l2, s.destroyed), l2.length)
  }

  /** `LIST_APPEND(list, elem)`. */
  function Append<T>(s: State<T>, elem: T, newNode: Addr): (r: (State<T>, SizeT))
    requires newNode !in s.heap
    requires Live(s.heap, s.list.tail)
    ensures r.0.heap.Keys == s.heap.Keys + {newNode} && r.0.list.tail == At(newNode)
    ensures r.0.heap[newNode].entry == elem && r.1 == Inc(s.list.length)
  {
    Add(s, elem, newNode, Tail)
  }

  /** `LIST_PREPEND(list, elem)`. */
  function Prepend<T>(s: State<T>, elem: T, newNode: Addr): (r: (State<T>, SizeT))
    requires newNode !in s.heap
    requires Live(s.heap, s.list.head)
    ensures r.0.heap.Keys == s.heap.Keys + {newNode} && r.0.list.head == At(newNode)
    ensures r.0.heap[newNode].entry == elem && r.1 == Inc(s.list.length)
  {
    Add(s, elem, newNode, Head)
  }

  /** The pointers `LIST_REMOVE` dereferences for node `e` are defined. */
  ghost predicate Unlinkable<T>(h: Heap<T>, e: Addr) {
    e in h && Live(h, h[e].prev) && Live(h, h[e].next)
  }

  /**
   `LIST_REMOVE(list, elem)`: point the neighbours of `e` past it, advance
   `head`/`tail` when `e` is one of them, and decrement `length`. The node itself
   stays allocated with its own links as they were. The result is the list and
   the value of the macro, which is that of the postfix `length--`: the length
   before the removal.
   */
  function Remove<T>(s: State<T>, e: Addr): (r: (State<T>, SizeT))
    requires Unlinkable(s.heap, e)
    ensures r.0.heap.Keys == s.heap.Keys && EntriesKept(s.heap, r.0.heap)
    ensures r.0.list.length == Dec(s.list.length) && r.1 == s.list.length
    ensures r.0.list.hasDestructor == s.list.hasDestructor && r.0.destroyed == s.destroyed
  {
    var n0 := s.heap[e];
    var h1 := if n0.prev.At? then s.heap[n0.prev.addr := s.heap[n0.prev.addr].(next := n0.next)] else s.heap;
    var n1 := h1[e];
    var h2 := if n1.next.At? then h1[n1.next.addr := h1[n1.next.addr].(prev := n1.prev)] else h1;
    var l1 := if At(e) == s.list.head then s.list.(head := h2[e].next) else s.list;
    var l2 := if At(e) == l1.tail then l1.(tail := h2[e].prev) else l1;
    (State(h2, l2.(length := Dec(l2.length)), s.destroyed), s.list.length)
  }

  /**
   `LIST_DEL(list, elem)`: remove `e`, call the destructor on its entry when one
   is set, then free the node.
   */
  function Delete<T>(s: State<T>, e: Addr): (r: State<T>)
    requires Unlinkable(s.heap, e)
    ensures r.heap.Keys == s.heap.Keys - {e} && r.list.length == Dec(s.list.length)
    ensures r.destroyed == if s.list.hasDestructor then s.destroyed + [s.heap[e].entry] else s.destroyed
  {
    var r := Remove(s, e).0;
    var log := if r.list.hasDestructor then r.destroyed + [r.heap[e].entry] else r.destroyed;
    State(r.heap - {e}, r.list, log)
  }

  /**
   `_LIST_POP(list, sentinal)`: remove the node at end `sentinal`, read its
   entry, free it and return the entry. There is no emptiness check: the end must
   point at a node.
   */
  function Pop<T>(s: State<T>, sentinal: End): (r: (State<T>, T))
    requires GetEnd(s.list, sentinal).At?
    requires Unlinkable(s.heap, GetEnd(s.list, sentinal).addr)
    ensures var end := GetEnd(s.list, sentinal).addr;
            && r.1 == s.heap[end].entry
            && r.0.heap.Keys == s.heap.Keys - {end}
    ensures r.0.list.length == Dec(s.list.length) && r.0.destroyed == s.destroyed
  {
    var temp := GetEnd(s.list, sentinal).addr;
    var r := Remove(s, temp).0;
    var retval := r.heap[temp].entry;
    (State(r.heap - {temp}, r.list, r.destroyed), retval)
  }

  /** `LIST_POPF(list)`. */
  function PopFront<T>(s: State<T>): (r: (State<T>, T))
    requires s.list.head.At? && Unlinkable(s.heap, s.list.head.addr)
    ensures r.1 == s.heap[s.list.head.addr].entry && r.0.heap.Keys == s.heap.Keys - {s.list.head.addr}
  {
    Pop(s, Head)
  }

  /** `LIST_POPB(list)`. */
  function PopBack<T>(s: State<T>): (r: (State<T>, T))
    requires s.list.tail.At? && Unlinkable(s.heap, s.list.tail.addr)
    ensures r.1 == s.heap[s.list.tail.addr].entry && r.0.heap.Keys == s.heap.Keys - {s.list.tail.addr}
  {
    Pop(s, Tail)
  }

  /** Every node of a valid list can be unlinked. */
  lemma ValidUnlinkable<T>(s: State<T>, ns: seq<Addr>, i: int)
    requires Valid(s, ns) && 0 <= i < |ns|
    ensures Unlinkable(s.heap, ns[i])
  {
  }

  /** `ns` without position `i`. */
  function Without<X>(xs: seq<X>, i: int): (r: seq<X>)
    requires 0 <= i < |xs|
  {
    xs[..i] + xs[i + 1..]
  }

  /** Position `k` of `Without(xs, i)` is position `k` of `xs` before `i` and `k + 1` from `i` on. */
  lemma WithoutAt<X>(xs: seq<X>, i: int)
    requires 0 <= i < |xs|
    ensures |Without(xs, i)| == |xs| - 1
    ensures forall k :: 0 <= k < |xs| - 1 ==> Without(xs, i)[k] == xs[if k < i then k else k + 1]
  {
  }

  /** The facts about the handle alone that Append and Prepend depend on. */
  ghost predicate EndsOf<T>(s: State<T>, ns: seq<Addr>) {
    && s.list.length == |ns|
    && s.list.head == (if ns == [] then Null else At(ns[0]))
    && s.list.tail == (if ns == [] then Null else At(ns[|ns| - 1]))
    && (ns != [] ==> ns[0] in s.heap && ns[|ns| - 1] in s.heap)
  }

  lemma ValidEnds<T>(s: State<T>, ns: seq<Addr>)
    requires Valid(s, ns)
    ensures EndsOf(s, ns)
  {
  }

  /** What `Append` writes into a valid list: the new node, and the old tail's `next` when there is one. */
  lemma AppendWrites<T>(s: State<T>, ns: seq<Addr>, elem: T, newNode: Addr)
    requires EndsOf(s, ns) && newNode !in s.heap && |ns| < SIZE_MAX
    ensures Live(s.heap, s.list.tail)
    ensures Append(s, elem, newNode).1 == |ns| + 1
    ensures Append(s, elem, newNode).0 ==
      if ns == [] then
        State(s.heap[newNode := Node(Null, Null, elem)], s.list.(head := At(newNode), tail := At(newNode), length := 1), s.destroyed)
      else
        State(LinkedAfter(s.heap, ns, elem, newNode), s.list.(tail := At(newNode), length := |ns| + 1), s.destroyed)
  {
  }

  /** What `Prepend` writes into a valid list: the new node, and the old head's `prev` when there is one. */
  lemma PrependWrites<T>(s: State<T>, ns: seq<Addr>, elem: T, newNode: Addr)
    requires EndsOf(s, ns) && newNode !in s.heap && |ns| < SIZE_MAX
    ensures Live(s.heap, s.list.head)
    ensures Prepend(s, elem, newNode).1 == |ns| + 1
    ensures Prepend(s, elem, newNode).0 ==
      if ns == [] then
        State(s.heap[newNode := Node(Null, Null, elem)], s.list.(head := At(newNode), tail := At(newNode), length := 1), s.destroyed)
      else
        State(LinkedBefore(s.heap, ns, elem, newNode), s.list.(head := At(newNode), length := |ns| + 1), s.destroyed)
  {
  }

  /**
   Append on a valid list of `n` nodes returns `n + 1`; the new node holding
   `elem` becomes the tail (and the head too when the list was empty); the values
   are the old ones followed by `elem`; the destructor, its log and every other
   node are untouched.
   */
  lemma AppendSpec<T>(s: State<T>, ns: seq<Addr>, elem: T, newNode: Addr)
    requires Valid(s, ns) && newNode !in s.heap && |ns| < SIZE_MAX
    ensures Live(s.heap, s.list.tail)
    ensures Append(s, elem, newNode).1 == |ns| + 1
    ensures var s' := Append(s, elem, newNode).0;
            && Valid(s', ns + [newNode])
            && Values(s', ns + [newNode]) == Values(s, ns) + [elem]
            && s'.list.tail == At(newNode)
            && (ns == [] ==> s'.list.head == At(newNode))
            && (ns != [] ==> s'.list.head == s.list.head)
            && s'.list.hasDestructor == s.list.hasDestructor
            && s'.destroyed == s.destroyed
            && s'.heap.Keys == s.heap.Keys + {newNode}
            && OthersUnchanged(s.heap, s'.heap, ns)
  {
    ValidEnds(s, ns);
    AppendWrites(s, ns, elem, newNode);
    AddedAtTail(s, ns, elem, newNode, Append(s, elem, newNode).0);
  }

  /** `AppendSpec` for the state `Append` writes, given in closed form. */
  lemma AddedAtTail<T>(s: State<T>, ns: seq<Addr>, elem: T, newNode: Addr, s': State<T>)
    requires Valid(s, ns) && newNode !in s.heap && |ns| < SIZE_MAX
    requires s' ==
      if ns == [] then
        State(s.heap[newNode := Node(Null, Null, elem)], s.list.(head := At(newNode), tail := At(newNode), length := 1), s.destroyed)
      else
        State(LinkedAfter(s.heap, ns, elem, newNode), s.list.(tail := At(newNode), length := |ns| + 1), s.destroyed)
    ensures Valid(s', ns + [newNode])
    ensures Values(s', ns + [newNode]) == Values(s, ns) + [elem]
    ensures s'.heap.Keys == s.heap.Keys + {newNode}
    ensures OthersUnchanged(s.heap, s'.heap, ns)
  {
    if ns == [] {
      AddedToEmpty(s, elem, newNode, s');
    } else {
      AddedAfterTail(s, ns, elem, newNode, s');
    }
  }

  /** A new node linked into an empty list: a valid one-node list holding `elem`, with one more node allocated. */
  lemma AddedToEmpty<T>(s: State<T>, elem: T, newNode: Addr, s': State<T>)
    requires Valid(s, []) && newNode !in s.heap
    requires s' == State(s.heap[newNode := Node(Null, Null, elem)],
                         s.list.(head := At(newNode), tail := At(newNode), length := 1), s.destroyed)
    ensures Valid(s', [newNode]) && Values(s', [newNode]) == [elem]
    ensures s'.heap.Keys == s.heap.Keys + {newNode} && OthersUnchanged(s.heap, s'.heap, [])
  {
    LinkIntoEmpty(s, elem, newNode);
    EntriesAdded(s.heap, s'.heap, [], newNode, elem);
  }

  /** A new node linked after the tail: the list stays valid with `elem` behind its values, and no other node changes. */
  lemma AddedAfterTail<T>(s: State<T>, ns: seq<Addr>, elem: T, newNode: Addr, s': State<T>)
    requires Valid(s, ns) && newNode !in s.heap && 0 < |ns| < SIZE_MAX
    requires s' == State(LinkedAfter(s.heap, ns, elem, newNode), s.list.(tail := At(newNode), length := |ns| + 1), s.destroyed)
    ensures Valid(s', ns + [newNode]) && Values(s', ns + [newNode]) == Values(s, ns) + [elem]
    ensures s'.heap.Keys == s.heap.Keys + {newNode} && OthersUnchanged(s.heap, s'.heap, ns)
  {
    LinkAfterTail(s, ns, elem, newNode);
    EntriesAdded(s.heap, s'.heap, ns, newNode, elem);
  }

  /**
   Prepend on a valid list of `n` nodes returns `n + 1`; the new node holding
   `elem` becomes the head (and the tail too when the list was empty); the values
   are `elem` followed by the old ones; the destructor, its log and every other
   node are untouched.
   */
  lemma PrependSpec<T>(s: State<T>, ns: seq<Addr>, elem: T, newNode: Addr)
    requires Valid(s, ns) && newNode !in s.heap && |ns| < SIZE_MAX
    ensures Live(s.heap, s.list.head)
    ensures Prepend(s, elem, newNode).1 == |ns| + 1
    ensures var s' := Prepend(s, elem, newNode).0;
            && Valid(s', [newNode] + ns)
            && Values(s', [newNode] + ns) == [elem] + Values(s, ns)
            && s'.list.head == At(newNode)
            && (ns == [] ==> s'.list.tail == At(newNode))
            && (ns != [] ==> s'.list.tail == s.list.tail)
            && s'.list.hasDestructor == s.list.hasDestructor
            && s'.destroyed == s.destroyed
            && s'.heap.Keys == s.heap.Keys + {newNode}
            && OthersUnchanged(s.heap, s'.heap, ns)
  {
    ValidEnds(s, ns);
    PrependWrites(s, ns, elem, newNode);
    AddedAtHead(s, ns, elem, newNode, Prepend(s, elem, newNode).0);
  }

  /** `PrependSpec` for the state `Prepend` writes, given in closed form. */
  lemma AddedAtHead<T>(s: State<T>, ns: seq<Addr>, elem: T, newNode: Addr, s': State<T>)
    requires Valid(s, ns) && newNode !in s.heap && |ns| < SIZE_MAX
    requires s' ==
      if ns == [] then
        State(s.heap[newNode := Node(Null, Null, elem)], s.list.(head := At(newNode), tail := At(newNode), length := 1), s.destroyed)
      else
        State(LinkedBefore(s.heap, ns, elem, newNode), s.list.(head := At(newNode), length := |ns| + 1), s.destroyed)
    ensures Valid(s', [newNode] + ns)
    ensures Values(s', [newNode] + ns) == [elem] + Values(s, ns)
    ensures s'.heap.Keys == s.heap.Keys + {newNode}
    ensures OthersUnchanged(s.heap, s'.heap, ns)
  {
    if ns == [] {
      AddedToEmpty(s, elem, newNode, s');
    } else {
      AddedBeforeHead(s, ns, elem, newNode, s');
    }
  }

  /** A new node linked before the head: the list stays valid with `elem` in front of its values, and no other node changes. */
  lemma AddedBeforeHead<T>(s: State<T>, ns: seq<Addr>, elem: T, newNode: Addr, s': State<T>)
    requires Valid(s, ns) && newNode !in s.heap && 0 < |ns| < SIZE_MAX
    requires s' == State(LinkedBefore(s.heap, ns, elem, newNode), s.list.(head := At(newNode), length := |ns| + 1), s.destroyed)
    ensures Valid(s', [newNode] + ns) && Values(s', [newNode] + ns) == [elem] + Values(s, ns)
    ensures s'.heap.Keys == s.heap.Keys + {newNode} && OthersUnchanged(s.heap, s'.heap, ns)
  {
    LinkBeforeHead(s, ns, elem, newNode);
    EntriesAdded(s.heap, s'.heap, ns, newNode, elem);
  }

  /**
   A heap that keeps every old node's entry and adds a node holding `elem`: the
   entries along `ns` with the new node behind or in front are the old entries
   with `elem` behind or in front.
   */
  lemma EntriesAdded<T>(h: Heap<T>, h': Heap<T>, ns: seq<Addr>, newNode: Addr, elem: T)
    requires AllLive(h, ns) && newNode !in h
    requires forall a :: a in h ==> a in h' && h'[a].entry == h[a].entry
    requires newNode in h' && h'[newNode].entry == elem
    ensures AllLive(h', ns + [newNode]) && Entries(h', ns + [newNode]) == Entries(h, ns) + [elem]
    ensures AllLive(h', [newNode] + ns) && Entries(h', [newNode] + ns) == [elem] + Entries(h, ns)
  {
    EntriesAgree(h, h', ns);
    EntriesConcat(h', ns, [newNode]);
    EntriesConcat(h', [newNode], ns);
  }

  /** A lone new node becomes a valid one-node list. */
  lemma LinkIntoEmpty<T>(s: State<T>, elem: T, newNode: Addr)
    requires Valid(s, []) && newNode !in s.heap
    ensures Valid(State(s.heap[newNode := Node(Null, Null, elem)],
                        s.list.(head := At(newNode), tail := At(newNode), length := 1), s.destroyed),
                  [newNode])
  {
  }

  /** The heap once a new node is linked after the tail `ns[|ns| - 1]`. */
  function LinkedAfter<T>(h: Heap<T>, ns: seq<Addr>, elem: T, newNode: Addr): (r: Heap<T>)
    requires 0 < |ns| && ns[|ns| - 1] in h
  {
    var t := ns[|ns| - 1];
    h[t := h[t].(next := At(newNode))][newNode := Node(Null, At(t), elem)]
  }

  /** The heap once a new node is linked before the head `ns[0]`. */
  function LinkedBefore<T>(h: Heap<T>, ns: seq<Addr>, elem: T, newNode: Addr): (r: Heap<T>)
    requires 0 < |ns| && ns[0] in h
  {
    var f := ns[0];
    h[f := h[f].(prev := At(newNode))][newNode := Node(At(f), Null, elem)]
  }

  /** Linking a new node after the tail of a non-empty valid list keeps it valid. */
  lemma LinkAfterTail<T>(s: State<T>, ns: seq<Addr>, elem: T, newNode: Addr)
    requires Valid(s, ns) && newNode !in s.heap && 0 < |ns| < SIZE_MAX
    ensures Valid(State(LinkedAfter(s.heap, ns, elem, newNode),
                        s.list.(tail := At(newNode), length := |ns| + 1), s.destroyed),
                  ns + [newNode])
  {
    var h' := LinkedAfter(s.heap, ns, elem, newNode);
    var ns' := ns + [newNode];
    assert Distinct(ns') by {
      DistinctCons(newNode, ns);
    }
    assert forall i :: 0 <= i < |ns'| ==> h'[ns'[i]].next == After(ns', i) by {
      forall i | 0 <= i < |ns'| ensures h'[ns'[i]].next == After(ns', i) {
        LinkedAfterAt(s, ns, elem, newNode, i);
      }
    }
    assert forall i :: 0 <= i < |ns'| ==> h'[ns'[i]].prev == Before(ns', i) by {
      forall i | 0 <= i < |ns'| ensures h'[ns'[i]].prev == Before(ns', i) {
        LinkedAfterAt(s, ns, elem, newNode, i);
      }
    }
    ValidIntro(State(h', s.list.(tail := At(newNode), length := |ns| + 1), s.destroyed), ns');
  }

  /** The links of position `i` once a new node is linked after the tail. */
  lemma LinkedAfterAt<T>(s: State<T>, ns: seq<Addr>, elem: T, newNode: Addr, i: int)
    requires Valid(s, ns) && newNode !in s.heap && 0 < |ns| && 0 <= i <= |ns|
    ensures var h' := LinkedAfter(s.heap, ns, elem, newNode);
            var ns' := ns + [newNode];
            h'[ns'[i]].next == After(ns', i) && h'[ns'[i]].prev == Before(ns', i)
  {
    var t := ns[|ns| - 1];
    var h' := LinkedAfter(s.heap, ns, elem, newNode);
    var ns' := ns + [newNode];
    if i == |ns| {
      assert ns'[i] == newNode && ns'[i - 1] == t;
    } else if i == |ns| - 1 {
      assert ns'[i] == t && ns'[i + 1] == newNode;
      assert i > 0 ==> ns'[i - 1] == ns[i - 1];
    } else {
      assert ns'[i] == ns[i] && ns[i] != t && ns[i] != newNode;
      assert ns'[i + 1] == ns[i + 1];
      assert i > 0 ==> ns'[i - 1] == ns[i - 1];
    }
  }

  /** Linking a new node before the head of a non-empty valid list keeps it valid. */
  lemma LinkBeforeHead<T>(s: State<T>, ns: seq<Addr>, elem: T, newNode: Addr)
    requires Valid(s, ns) && newNode !in s.heap && 0 < |ns| < SIZE_MAX
    ensures Valid(State(LinkedBefore(s.heap, ns, elem, newNode),
                        s.list.(head := At(newNode), length := |ns| + 1), s.destroyed),
                  [newNode] + ns)
  {
    var h' := LinkedBefore(s.heap, ns, elem, newNode);
    var ns' := [newNode] + ns;
    assert Distinct(ns') by {
      DistinctCons(newNode, ns);
    }
    assert forall i :: 0 <= i < |ns'| ==> h'[ns'[i]].next == After(ns', i) by {
      forall i | 0 <= i < |ns'| ensures h'[ns'[i]].next == After(ns', i) {
        LinkedBeforeAt(s, ns, elem, newNode, i);
      }
    }
    assert forall i :: 0 <= i < |ns'| ==> h'[ns'[i]].prev == Before(ns', i) by {
      forall i | 0 <= i < |ns'| ensures h'[ns'[i]].prev == Before(ns', i) {
        LinkedBeforeAt(s, ns, elem, newNode, i);
      }
    }
    ValidIntro(State(h', s.list.(head := At(newNode), length := |ns| + 1), s.destroyed), ns');
  }

  /** The links of position `i` once a new node is linked before the head. */
  lemma LinkedBeforeAt<T>(s: State<T>, ns: seq<Addr>, elem: T, newNode: Addr, i: int)
    requires Valid(s, ns) && newNode !in s.heap && 0 < |ns| && 0 <= i <= |ns|
    ensures var h' := LinkedBefore(s.heap, ns, elem, newNode);
            var ns' := [newNode] + ns;
            h'[ns'[i]].next == After(ns', i) && h'[ns'[i]].prev == Before(ns', i)
  {
    var f := ns[0];
    var h' := LinkedBefore(s.heap, ns, elem, newNode);
    var ns' := [newNode] + ns;
    if i == 0 {
      assert ns'[0] == newNode && ns'[1] == f;
    } else if i == 1 {
      assert ns'[1] == f && ns'[0] == newNode;
      assert i + 1 < |ns'| ==> ns'[i + 1] == ns[1];
    } else {
      assert ns'[i] == ns[i - 1] && ns[i - 1] != f && ns[i - 1] != newNode;
      assert ns'[i - 1] == ns[i - 2];
      assert i + 1 < |ns'| ==> ns'[i + 1] == ns[i];
    }
  }

  /** No node's entry changes, and no node appears. */
  ghost predicate EntriesKept<T>(h: Heap<T>, h': Heap<T>) {
    forall a :: a in h' ==> a in h && h'[a].entry == h[a].entry
  }

  /** Dropping position `i` from a sequence of addresses drops position `i` from their entries. */
  lemma EntriesWithout<T>(h: Heap<T>, xs: seq<Addr>, i: int)
    requires AllLive(h, xs) && 0 <= i < |xs|
    ensures AllLive(h, Without(xs, i))
    ensures Entries(h, Without(xs, i)) == Without(Entries(h, xs), i)
  {
    var ys := Without(xs, i);
    assert forall k :: 0 <= k < |ys| ==> ys[k] == if k < i then xs[k] else xs[k + 1];
  }

  /** The node at `a` once `Remove` has unlinked position `i` of `ns`: only the two neighbours change. */
  function Unlinked<T>(h: Heap<T>, ns: seq<Addr>, i: int, a: Addr): (r: Node<T>)
    requires 0 <= i < |ns| && a in h
  {
    if i > 0 && a == ns[i - 1] then h[a].(next := After(ns, i))
    else if i + 1 < |ns| && a == ns[i + 1] then h[a].(prev := Before(ns, i))
    else h[a]
  }

  /** The facts about node `i` of a list and its neighbours that Remove depends on. */
  ghost predicate Around<T>(s: State<T>, ns: seq<Addr>, i: int)
    requires 0 <= i < |ns|
  {
    var e := ns[i];
    && e in s.heap
    && s.heap[e].prev == Before(ns, i)
    && s.heap[e].next == After(ns, i)
    && (i > 0 ==> ns[i - 1] in s.heap && ns[i - 1] != e)
    && (i + 1 < |ns| ==> ns[i + 1] in s.heap && ns[i + 1] != e)
    && (i > 0 && i + 1 < |ns| ==> ns[i - 1] != ns[i + 1])
    && s.list.length == |ns|
    && (s.list.head == At(e) <==> i == 0)
    && (s.list.tail == At(e) <==> i == |ns| - 1)
  }

  lemma ValidAround<T>(s: State<T>, ns: seq<Addr>, i: int)
    requires Valid(s, ns) && 0 <= i < |ns|
    ensures Around(s, ns, i)
  {
  }

  /** What `Remove` writes when unlinking position `i` of a list. */
  lemma RemoveWrites<T>(s: State<T>, ns: seq<Addr>, i: int)
    requires 0 <= i < |ns| && Around(s, ns, i)
    ensures Unlinkable(s.heap, ns[i])
    ensures var (s', n) := Remove(s, ns[i]);
            && n == |ns|
            && s'.heap.Keys == s.heap.Keys
            && (forall a :: a in s.heap ==> s'.heap[a] == Unlinked(s.heap, ns, i, a))
            && s'.list == s.list.(head := if i == 0 then After(ns, i) else s.list.head,
                                  tail := if i == |ns| - 1 then Before(ns, i) else s.list.tail,
                                  length := |ns| - 1)
            && s'.destroyed == s.destroyed
  {
    var e := ns[i];
    var n0 := s.heap[e];
    var h1 := if n0.prev.At? then s.heap[n0.prev.addr := s.heap[n0.prev.addr].(next := n0.next)] else s.heap;
    assert h1[e] == n0;
    var h2 := if n0.next.At? then h1[n0.next.addr := h1[n0.next.addr].(prev := n0.prev)] else h1;
    assert h2[e] == n0;
    assert Remove(s, e).0.heap == h2;
    forall a | a in s.heap
      ensures h2[a] == Unlinked(s.heap, ns, i, a)
    {
    }
  }

  /** Unlinking position `i` of a valid list leaves a valid list of the other nodes. */
  lemma UnlinkValid<T>(s: State<T>, ns: seq<Addr>, i: int, s': State<T>)
    requires Valid(s, ns) && 0 <= i < |ns|
    requires s'.heap.Keys == s.heap.Keys
    requires forall a :: a in s.heap ==> s'.heap[a] == Unlinked(s.heap, ns, i, a)
    requires s'.list == s.list.(head := if i == 0 then After(ns, i) else s.list.head,
                                tail := if i == |ns| - 1 then Before(ns, i) else s.list.tail,
                                length := |ns| - 1)
    ensures Valid(s', Without(ns, i))
  {
    WithoutDistinct(ns, i);
    WithoutEnds(ns, i);
    WithoutAt(ns, i);
    UnlinkedAllLinks(s, ns, i, s');
  }

  /** Every node left once position `i` is unlinked points at its new neighbours. */
  lemma UnlinkedAllLinks<T>(s: State<T>, ns: seq<Addr>, i: int, s': State<T>)
    requires Valid(s, ns) && 0 <= i < |ns|
    requires s'.heap.Keys == s.heap.Keys
    requires forall a :: a in s.heap ==> s'.heap[a] == Unlinked(s.heap, ns, i, a)
    ensures var ns' := Without(ns, i);
            && AllLive(s'.heap, ns')
            && (forall k :: 0 <= k < |ns'| ==> s'.heap[ns'[k]].next == After(ns', k))
            && (forall k :: 0 <= k < |ns'| ==> s'.heap[ns'[k]].prev == Before(ns', k))
  {
    var ns' := Without(ns, i);
    WithoutAt(ns, i);
    assert AllLive(s'.heap, ns');
    forall k | 0 <= k < |ns'|
      ensures s'.heap[ns'[k]].next == After(ns', k)
      ensures s'.heap[ns'[k]].prev == Before(ns', k)
    {
      UnlinkedLinks(s, ns, i, s', k);
    }
  }

  /** The ends of `Without(xs, i)`: its first element is the second of `xs` when `i` is the first position, and likewise for the last. */
  lemma WithoutEnds<X>(xs: seq<X>, i: int)
    requires 0 <= i < |xs|
    ensures var ys := Without(xs, i);
            && |ys| == |xs| - 1
            && (ys != [] ==> ys[0] == xs[if i == 0 then 1 else 0])
            && (ys != [] ==> ys[|ys| - 1] == xs[if i == |xs| - 1 then |xs| - 2 else |xs| - 1])
  {
    WithoutAt(xs, i);
  }

  /** The links of the `k`-th remaining node once position `i` is unlinked. */
  lemma UnlinkedLinks<T>(s: State<T>, ns: seq<Addr>, i: int, s': State<T>, k: int)
    requires Valid(s, ns) && 0 <= i < |ns| && 0 <= k < |ns| - 1
    requires s'.heap.Keys == s.heap.Keys
    requires forall a :: a in s.heap ==> s'.heap[a] == Unlinked(s.heap, ns, i, a)
    ensures var ns' := Without(ns, i);
            && s'.heap[ns'[k]].next == After(ns', k)
            && s'.heap[ns'[k]].prev == Before(ns', k)
  {
    if k < i - 1 {
      UnlinkedLinksBefore(s, ns, i, s', k);
    } else if k == i - 1 {
      UnlinkedLinksPrev(s, ns, i, s', k);
    } else if k == i {
      UnlinkedLinksNext(s, ns, i, s', k);
    } else {
      UnlinkedLinksAfter(s, ns, i, s', k);
    }
  }

  /** `UnlinkedLinks` for a node before the removed node's predecessor: nothing changed around it. */
  lemma UnlinkedLinksBefore<T>(s: State<T>, ns: seq<Addr>, i: int, s': State<T>, k: int)
    requires Valid(s, ns) && 0 <= i < |ns| && 0 <= k < |ns| - 1
    requires s'.heap.Keys == s.heap.Keys
    requires forall a :: a in s.heap ==> s'.heap[a] == Unlinked(s.heap, ns, i, a)
    requires k < i - 1
    ensures var ns' := Without(ns, i);
            && s'.heap[ns'[k]].next == After(ns', k)
            && s'.heap[ns'[k]].prev == Before(ns', k)
  {
    var ns' := Without(ns, i);
    assert ns'[k] == ns[k] && ns'[k + 1] == ns[k + 1];
    assert ns[k] != ns[i - 1];
    assert i + 1 < |ns| ==> ns[k] != ns[i + 1];
    assert s'.heap[ns[k]] == s.heap[ns[k]];
    assert k > 0 ==> ns'[k - 1] == ns[k - 1];
  }

  /** `UnlinkedLinks` for the removed node's predecessor, whose `next` now skips it. */
  lemma UnlinkedLinksPrev<T>(s: State<T>, ns: seq<Addr>, i: int, s': State<T>, k: int)
    requires Valid(s, ns) && 0 <= i < |ns| && 0 <= k < |ns| - 1
    requires s'.heap.Keys == s.heap.Keys
    requires forall a :: a in s.heap ==> s'.heap[a] == Unlinked(s.heap, ns, i, a)
    requires k == i - 1
    ensures var ns' := Without(ns, i);
            && s'.heap[ns'[k]].next == After(ns', k)
            && s'.heap[ns'[k]].prev == Before(ns', k)
  {
    var ns' := Without(ns, i);
    assert ns'[k] == ns[k];
    assert i + 1 < |ns| ==> ns[k] != ns[i + 1] && ns'[k + 1] == ns[i + 1];
    assert s'.heap[ns[k]] == s.heap[ns[k]].(next := After(ns, i));
    assert k > 0 ==> ns'[k - 1] == ns[k - 1];
  }

  /** `UnlinkedLinks` for the removed node's successor, whose `prev` now skips it. */
  lemma UnlinkedLinksNext<T>(s: State<T>, ns: seq<Addr>, i: int, s': State<T>, k: int)
    requires Valid(s, ns) && 0 <= i < |ns| && 0 <= k < |ns| - 1
    requires s'.heap.Keys == s.heap.Keys
    requires forall a :: a in s.heap ==> s'.heap[a] == Unlinked(s.heap, ns, i, a)
    requires k == i
    ensures var ns' := Without(ns, i);
            && s'.heap[ns'[k]].next == After(ns', k)
            && s'.heap[ns'[k]].prev == Before(ns', k)
  {
    var ns' := Without(ns, i);
    assert ns'[k] == ns[i + 1];
    assert i > 0 ==> ns[i + 1] != ns[i - 1] && ns'[k - 1] == ns[i - 1];
    assert s'.heap[ns[i + 1]] == s.heap[ns[i + 1]].(prev := Before(ns, i));
    assert k + 1 < |ns'| ==> ns'[k + 1] == ns[k + 2];
  }

  /** `UnlinkedLinks` for a node after the removed node's successor: nothing changed around it. */
  lemma UnlinkedLinksAfter<T>(s: State<T>, ns: seq<Addr>, i: int, s': State<T>, k: int)
    requires Valid(s, ns) && 0 <= i < |ns| && 0 <= k < |ns| - 1
    requires s'.heap.Keys == s.heap.Keys
    requires forall a :: a in s.heap ==> s'.heap[a] == Unlinked(s.heap, ns, i, a)
    requires k > i
    ensures var ns' := Without(ns, i);
            && s'.heap[ns'[k]].next == After(ns', k)
            && s'.heap[ns'[k]].prev == Before(ns', k)
  {
    var ns' := Without(ns, i);
    assert ns'[k] == ns[k + 1];
    assert ns[k + 1] != ns[i + 1];
    assert i > 0 ==> ns[k + 1] != ns[i - 1];
    assert s'.heap[ns[k + 1]] == s.heap[ns[k + 1]];
    assert k + 1 < |ns'| ==> ns'[k + 1] == ns[k + 2];
    assert ns'[k - 1] == ns[k];
  }

  /**
   Remove on node `i` of a valid list: the list keeps every other node in order
   with its entry, one fewer in `length`; `head`/`tail` advance past the node when
   it was an end; the list becomes empty exactly when it had one node; the
   destructor and its log are unchanged; and the macro's value is the length
   before the removal.
   */
  lemma RemoveSpec<T>(s: State<T>, ns: seq<Addr>, i: int)
    requires Valid(s, ns) && 0 <= i < |ns|
    ensures Unlinkable(s.heap, ns[i])
    ensures Remove(s, ns[i]).1 == |ns|
    ensures var s' := Remove(s, ns[i]).0;
            && Valid(s', Without(ns, i))
            && Values(s', Without(ns, i)) == Without(Values(s, ns), i)
            && s'.list.length == |ns| - 1
            && s'.list.head == (if i == 0 then s.heap[ns[i]].next else s.list.head)
            && s'.list.tail == (if i == |ns| - 1 then s.heap[ns[i]].prev else s.list.tail)
            && (s'.list.head == Null <==> |ns| == 1)
            && s'.list.hasDestructor == s.list.hasDestructor
            && s'.destroyed == s.destroyed
  {
    ValidAround(s, ns, i);
    RemoveWrites(s, ns, i);
    var s' := Remove(s, ns[i]).0;
    UnlinkValid(s, ns, i, s');
    RemoveKeepsNodes(s, ns, i);
    EntriesAgree(s.heap, s'.heap, Without(ns, i));
    EntriesWithout(s.heap, ns, i);
  }

  /**
   Remove frees nothing and changes no entry: the removed node keeps its own
   `next`/`prev` as they were, and nodes outside the list are untouched.
   */
  lemma RemoveKeepsNodes<T>(s: State<T>, ns: seq<Addr>, i: int)
    requires Valid(s, ns) && 0 <= i < |ns|
    ensures Unlinkable(s.heap, ns[i])
    ensures var s' := Remove(s, ns[i]).0;
            && s'.heap.Keys == s.heap.Keys
            && s'.heap[ns[i]] == s.heap[ns[i]]
            && EntriesKept(s.heap, s'.heap)
            && OthersUnchanged(s.heap, s'.heap, ns)
  {
    ValidAround(s, ns, i);
    RemoveWrites(s, ns, i);
    UnlinkedKeeps(s.heap, Remove(s, ns[i]).0.heap, ns, i);
  }

  /**
   A heap in which position `i` of `ns` has been unlinked keeps that node itself,
   every entry, and every node outside `ns`.
   */
  lemma UnlinkedKeeps<T>(h: Heap<T>, h': Heap<T>, ns: seq<Addr>, i: int)
    requires 0 <= i < |ns| && ns[i] in h
    requires (i > 0 ==> ns[i - 1] != ns[i]) && (i + 1 < |ns| ==> ns[i + 1] != ns[i])
    requires h'.Keys == h.Keys && forall a :: a in h ==> h'[a] == Unlinked(h, ns, i, a)
    ensures h'[ns[i]] == h[ns[i]] && EntriesKept(h, h') && OthersUnchanged(h, h', ns)
  {
    assert h'[ns[i]] == Unlinked(h, ns, i, ns[i]);
    forall a | a in h && a !in ns
      ensures h'[a] == h[a]
    {
      assert i > 0 ==> ns[i - 1] in ns;
      assert i + 1 < |ns| ==> ns[i + 1] in ns;
      assert h'[a] == Unlinked(h, ns, i, a);
    }
    forall a | a in h'
      ensures h'[a].entry == h[a].entry
    {
      assert h'[a] == Unlinked(h, ns, i, a);
    }
  }

  /** Dropping a position of a sequence of distinct addresses keeps them distinct. */
  lemma WithoutDistinct(xs: seq<Addr>, i: int)
    requires Distinct(xs) && 0 <= i < |xs|
    ensures Distinct(Without(xs, i))
  {
    var ys := Without(xs, i);
    forall a, b | 0 <= a < b < |ys|
      ensures ys[a] != ys[b]
    {
      assert ys[a] == xs[if a < i then a else a + 1];
      assert ys[b] == xs[if b < i then b else b + 1];
    }
  }

  /** Dropping position `i` of a sequence of distinct addresses drops that address. */
  lemma WithoutDrops(xs: seq<Addr>, i: int)
    requires Distinct(xs) && 0 <= i < |xs|
    ensures xs[i] !in Without(xs, i)
  {
    var ys := Without(xs, i);
    forall k | 0 <= k < |ys|
      ensures ys[k] != xs[i]
    {
      assert ys[k] == xs[if k < i then k else k + 1];
    }
  }

  /** Freeing a node that is not in a valid list leaves the list valid with the same values. */
  lemma FreeOutside<T>(s: State<T>, ns: seq<Addr>, e: Addr, log: seq<T>)
    requires Valid(s, ns) && e !in ns
    ensures Valid(State(s.heap - {e}, s.list, log), ns)
    ensures Values(State(s.heap - {e}, s.list, log), ns) == Values(s, ns)
  {
    var h' := s.heap - {e};
    assert forall k :: 0 <= k < |ns| ==> ns[k] != e;
    assert forall k :: 0 <= k < |ns| ==> h'[ns[k]] == s.heap[ns[k]];
    EntriesAgree(s.heap, h', ns);
  }

  /**
   Delete on node `i` of a valid list unlinks it exactly as Remove does; when the
   list has a destructor, that node's entry is appended to the destructor log
   once, and otherwise the log is unchanged.
   */
  lemma DeleteSpec<T>(s: State<T>, ns: seq<Addr>, i: int)
    requires Valid(s, ns) && 0 <= i < |ns|
    ensures Unlinkable(s.heap, ns[i])
    ensures var s' := Delete(s, ns[i]);
            && Valid(s', Without(ns, i))
            && Values(s', Without(ns, i)) == Without(Values(s, ns), i)
            && s'.list == Remove(s, ns[i]).0.list
            && s'.list.hasDestructor == s.list.hasDestructor
            && s'.destroyed == (if s.list.hasDestructor then s.destroyed + [s.heap[ns[i]].entry] else s.destroyed)
  {
    var e := ns[i];
    var ns' := Without(ns, i);
    var r := Remove(s, e).0;
    var log := if s.list.hasDestructor then s.destroyed + [s.heap[e].entry] else s.destroyed;
    assert Delete(s, e) == State(r.heap - {e}, r.list, log) by {
      RemoveSpec(s, ns, i);
      RemoveOwnNode(s, ns, i);
    }
    assert Valid(r, ns') && Values(r, ns') == Without(Values(s, ns), i) && r.list.hasDestructor == s.list.hasDestructor by {
      RemoveSpec(s, ns, i);
    }
    WithoutDrops(ns, i);
    FreeOutside(r, ns', e, log);
  }

  /** Remove leaves the removed node allocated, with its own links and entry as they were. */
  lemma RemoveOwnNode<T>(s: State<T>, ns: seq<Addr>, i: int)
    requires Valid(s, ns) && 0 <= i < |ns|
    ensures Unlinkable(s.heap, ns[i])
    ensures ns[i] in Remove(s, ns[i]).0.heap && Remove(s, ns[i]).0.heap[ns[i]] == s.heap[ns[i]]
  {
    RemoveKeepsNodes(s, ns, i);
  }

  /** Delete frees exactly the deleted node and changes no other node outside the list, nor any entry. */
  lemma DeleteFrees<T>(s: State<T>, ns: seq<Addr>, i: int)
    requires Valid(s, ns) && 0 <= i < |ns|
    ensures Unlinkable(s.heap, ns[i])
    ensures var s' := Delete(s, ns[i]);
            && s'.heap.Keys == s.heap.Keys - {ns[i]}
            && EntriesKept(s.heap, s'.heap)
            && OthersUnchanged(s.heap, s'.heap, ns)
  {
    RemoveKeepsNodes(s, ns, i);
  }

  /** The position of the node at end `e` of a list of `n` nodes. */
  function EndAt(n: nat, e: End): (r: int) {
    match e
    case Head => 0
    case Tail => n - 1
  }

  /**
   Pop from end `e` of a non-empty valid list returns that end's entry, drops its
   node (freed), decrements `length` and leaves the destructor log alone, as
   `_LIST_POP` frees the node without calling the destructor.
   */
  lemma PopSpec<T>(s: State<T>, ns: seq<Addr>, e: End)
    requires Valid(s, ns) && |ns| > 0
    ensures GetEnd(s.list, e) == At(ns[EndAt(|ns|, e)]) && Unlinkable(s.heap, ns[EndAt(|ns|, e)])
    ensures var i := EndAt(|ns|, e);
            var (s', v) := Pop(s, e);
            && v == Values(s, ns)[i]
            && Valid(s', Without(ns, i))
            && Values(s', Without(ns, i)) == Without(Values(s, ns), i)
            && s'.list.length == |ns| - 1
            && s'.list.hasDestructor == s.list.hasDestructor
            && s'.destroyed == s.destroyed
            && s'.heap.Keys == s.heap.Keys - {ns[i]}
            && EntriesKept(s.heap, s'.heap)
            && OthersUnchanged(s.heap, s'.heap, ns)
  {
    var i := EndAt(|ns|, e);
    var a := ns[i];
    var ns' := Without(ns, i);
    var r := Remove(s, a).0;
    assert GetEnd(s.list, e) == At(a) && Unlinkable(s.heap, a) by {
      ValidUnlinkable(s, ns, i);
    }
    assert Pop(s, e) == (State(r.heap - {a}, r.list, s.destroyed), s.heap[a].entry) by {
      RemoveSpec(s, ns, i);
      RemoveOwnNode(s, ns, i);
    }
    assert && Valid(r, ns') && Values(r, ns') == Without(Values(s, ns), i)
           && r.list.length == |ns| - 1 && r.list.hasDestructor == s.list.hasDestructor by {
      RemoveSpec(s, ns, i);
    }
    assert r.heap.Keys == s.heap.Keys && EntriesKept(s.heap, r.heap) && OthersUnchanged(s.heap, r.heap, ns) by {
      RemoveKeepsNodes(s, ns, i);
    }
    WithoutDrops(ns, i);
    FreeOutside(r, ns', a, s.destroyed);
  }

  /** Pop from the front of a non-empty valid list: the head's entry, and the list of the remaining nodes. */
  lemma PopFrontSpec<T>(s: State<T>, ns: seq<Addr>)
    requires Valid(s, ns) && |ns| > 0
    ensures s.list.head.At? && Unlinkable(s.heap, s.list.head.addr)
    ensures var (s', v) := PopFront(s);
            && v == Values(s, ns)[0]
            && Valid(s', ns[1..])
            && Values(s', ns[1..]) == Values(s, ns)[1..]
            && s'.list.length == |ns| - 1
            && s'.list.hasDestructor == s.list.hasDestructor
            && s'.destroyed == s.destroyed
            && s'.heap.Keys == s.heap.Keys - {ns[0]}
            && EntriesKept(s.heap, s'.heap)
            && OthersUnchanged(s.heap, s'.heap, ns)
  {
    PopSpec(s, ns, Head);
    assert Without(ns, 0) == ns[1..];
    assert Without(Values(s, ns), 0) == Values(s, ns)[1..];
  }

  /** Pop from the back of a non-empty valid list: the tail's entry, and the list of the remaining nodes. */
  lemma PopBackSpec<T>(s: State<T>, ns: seq<Addr>)
    requires Valid(s, ns) && |ns| > 0
    ensures s.list.tail.At? && Unlinkable(s.heap, s.list.tail.addr)
    ensures var (s', v) := PopBack(s);
            && v == Values(s, ns)[|ns| - 1]
            && Valid(s', ns[..|ns| - 1])
            && Values(s', ns[..|ns| - 1]) == Values(s, ns)[..|ns| - 1]
            && s'.list.length == |ns| - 1
            && s'.list.hasDestructor == s.list.hasDestructor
            && s'.destroyed == s.destroyed
            && s'.heap.Keys == s.heap.Keys - {ns[|ns| - 1]}
            && EntriesKept(s.heap, s'.heap)
            && OthersUnchanged(s.heap, s'.heap, ns)
  {
    var n := |ns|;
    PopSpec(s, ns, Tail);
    assert Without(ns, n - 1) == ns[..n - 1];
    assert Without(Values(s, ns), n - 1) == Values(s, ns)[..n - 1];
  }

  /**
   `LIST_REMOVE` as its documentation describes it: the same unlinking, with the
   value of the prefix `--length`, which is the length of the remaining list.
   */
  function RemoveNewLength<T>(s: State<T>, ghost ns: seq<Addr>, ghost i: int, elem: Addr): (r: (State<T>, SizeT))
    requires Valid(s, ns) && 0 <= i < |ns| && elem == ns[i]
    ensures Valid(r.0, Without(ns, i))
    ensures r.1 == |ns| - 1 == |Without(ns, i)|
    ensures r.0 == Remove(s, elem).0
  {
    RemoveSpec(s, ns, i);
    WithoutAt(ns, i);
    var r := Remove(s, elem).0;
    (r, r.list.length)
  }
}

=== FILE: macros.dfy ===
/**
 The list macros as a caller invokes them: `LIST_APPEND` and `LIST_PREPEND`
 obtain their node from `malloc` themselves, and every macro returns the list
 state it leaves behind together with the macro's value. Each contract says what
 the macro does to a valid list in terms of that list's values.
 */
module ListMacros {
  import opened Memory
  import opened ListModel
  import opened ListOps

  /**
   `LIST_APPEND(list, elem)`: a newly allocated node holding `elem` becomes the
   tail (and the head of an empty list); the result is the new length.
   */
  method ListAppend<T>(s: State<T>, ghost ns: seq<Addr>, elem: T) returns (s': State<T>, length: SizeT)
    requires Valid(s, ns) && |ns| < SIZE_MAX
    ensures length == |ns| + 1
    ensures s'.list.tail.At? && s'.list.tail.addr !in s.heap
    ensures Valid(s', ns + [s'.list.tail.addr])
    ensures Values(s', ns + [s'.list.tail.addr]) == Values(s, ns) + [elem]
    ensures s'.list.head == (if ns == [] then s'.list.tail else s.list.head)
    ensures s'.list.hasDestructor == s.list.hasDestructor && s'.destroyed == s.destroyed
    ensures s'.heap.Keys == s.heap.Keys + {s'.list.tail.addr}
    ensures OthersUnchanged(s.heap, s'.heap, ns)
  {
    var newNode := Malloc(s.heap);
    AppendSpec(s, ns, elem, newNode);
    s', length := Append(s, elem, newNode).0, Append(s, elem, newNode).1;
  }

  /**
   `LIST_PREPEND(list, elem)`: a newly allocated node holding `elem` becomes the
   head (and the tail of an empty list); the result is the new length.
   */
  method ListPrepend<T>(s: State<T>, ghost ns: seq<Addr>, elem: T) returns (s': State<T>, length: SizeT)
    requires Valid(s, ns) && |ns| < SIZE_MAX
    ensures length == |ns| + 1
    ensures s'.list.head.At? && s'.list.head.addr !in s.heap
    ensures Valid(s', [s'.list.head.addr] + ns)
    ensures Values(s', [s'.list.head.addr] + ns) == [elem] + Values(s, ns)
    ensures s'.list.tail == (if ns == [] then s'.list.head else s.list.tail)
    ensures s'.list.hasDestructor == s.list.hasDestructor && s'.destroyed == s.destroyed
    ensures s'.heap.Keys == s.heap.Keys + {s'.list.head.addr}
    ensures OthersUnchanged(s.heap, s'.heap, ns)
  {
    var newNode := Malloc(s.heap);
    PrependSpec(s, ns, elem, newNode);
    s', length := Prepend(s, elem, newNode).0, Prepend(s, elem, newNode).1;
  }

  /**
   `LIST_REMOVE(list, elem)` on the node at position `i`: the list loses that
   node and its value, the head or tail moves past it when it was one, and the
   result is the length before the removal. Nothing is freed and the removed
   node keeps its own links.
   */
  method ListRemove<T>(s: State<T>, ghost ns: seq<Addr>, ghost i: int, elem: Addr) returns (s': State<T>, length: SizeT)
    requires Valid(s, ns) && 0 <= i < |ns| && elem == ns[i]
    ensures length == |ns|
    ensures Valid(s', Without(ns, i))
    ensures Values(s', Without(ns, i)) == Without(Values(s, ns), i)
    ensures s'.list.length == |ns| - 1
    ensures s'.list.head == (if i == 0 then s.heap[elem].next else s.list.head)
    ensures s'.list.tail == (if i == |ns| - 1 then s.heap[elem].prev else s.list.tail)
    ensures s'.list.hasDestructor == s.list.hasDestructor && s'.destroyed == s.destroyed
    ensures s'.heap.Keys == s.heap.Keys && s'.heap[elem] == s.heap[elem]
    ensures EntriesKept(s.heap, s'.heap) && OthersUnchanged(s.heap, s'.heap, ns)
  {
    RemoveSpec(s, ns, i);
    RemoveKeepsNodes(s, ns, i);
    s', length := Remove(s, elem).0, Remove(s, elem).1;
  }

  /**
   `LIST_DEL(list, elem)` on the node at position `i`: the list loses that node
   and its value, the destructor (when set) is called on the value, and exactly
   that node is freed.
   */
  method ListDel<T>(s: State<T>, ghost ns: seq<Addr>, ghost i: int, elem: Addr) returns (s': State<T>)
    requires Valid(s, ns) && 0 <= i < |ns| && elem == ns[i]
    ensures Valid(s', Without(ns, i))
    ensures Values(s', Without(ns, i)) == Without(Values(s, ns), i)
    ensures s'.list.length == |ns| - 1
    ensures s'.list.hasDestructor == s.list.hasDestructor
    ensures s'.destroyed == (if s.list.hasDestructor then s.destroyed + [Values(s, ns)[i]] else s.destroyed)
    ensures s'.heap.Keys == s.heap.Keys - {elem}
    ensures EntriesKept(s.heap, s'.heap) && OthersUnchanged(s.heap, s'.heap, ns)
  {
    DeleteSpec(s, ns, i);
    DeleteFrees(s, ns, i);
    WithoutAt(ns, i);
    s' := Delete(s, elem);
  }

  /** `LIST_POPF(list)` on a non-empty list: the first value, and the list of the others with its node freed. */
  method ListPopF<T>(s: State<T>, ghost ns: seq<Addr>) returns (s': State<T>, value: T)
    requires Valid(s, ns) && |ns| > 0
    ensures value == Values(s, ns)[0]
    ensures Valid(s', ns[1..]) && Values(s', ns[1..]) == Values(s, ns)[1..]
    ensures s'.list.length == |ns| - 1
    ensures s'.list.hasDestructor == s.list.hasDestructor && s'.destroyed == s.destroyed
    ensures s'.heap.Keys == s.heap.Keys - {ns[0]}
    ensures EntriesKept(s.heap, s'.heap) && OthersUnchanged(s.heap, s'.heap, ns)
  {
    PopFrontSpec(s, ns);
    s', value := PopFront(s).0, PopFront(s).1;
  }

  /** `LIST_POPB(list)` on a non-empty list: the last value, and the list of the others with its node freed. */
  method ListPopB<T>(s: State<T>, ghost ns: seq<Addr>) returns (s': State<T>, value: T)
    requires Valid(s, ns) && |ns| > 0
    ensures value == Values(s, ns)[|ns| - 1]
    ensures Valid(s', ns[..|ns| - 1]) && Values(s', ns[..|ns| - 1]) == Values(s, ns)[..|ns| - 1]
    ensures s'.list.length == |ns| - 1
    ensures s'.list.hasDestructor == s.list.hasDestructor && s'.destroyed == s.destroyed
    ensures s'.heap.Keys == s.heap.Keys - {ns[|ns| - 1]}
    ensures EntriesKept(s.heap, s'.heap) && OthersUnchanged(s.heap, s'.heap, ns)
  {
    PopBackSpec(s, ns);
    s', value := PopBack(s).0, PopBack(s).1;
  }

  /**
   The list after `j` calls of `LIST_POPF` on the valid list `ns` of `s`: a valid
   list of the nodes from `j` on, holding the values from `j` on, and the values
   popped so far, which are the first `j`; only the popped nodes are freed, no
   entry changes and no node outside the list changes.
   */
  ghost predicate Popped<T>(s: State<T>, ns: seq<Addr>, j: int, cur: State<T>, values: seq<T>)
    requires AllLive(s.heap, ns)
  {
    && 0 <= j <= |ns|
    && Valid(cur, ns[j..])
    && values == Values(s, ns)[..j]
    && Values(cur, ns[j..]) == Values(s, ns)[j..]
    && cur.list.length == |ns| - j
    && cur.list.hasDestructor == s.list.hasDestructor
    && cur.destroyed == s.destroyed
    && (forall a :: a in cur.heap <==> a in s.heap && a !in ns[..j])
    && EntriesKept(s.heap, cur.heap)
    && OthersUnchanged(s.heap, cur.heap, ns)
  }

  /** One more `LIST_POPF` extends the popped prefix by the next value. */
  lemma PoppedStep<T>(s: State<T>, ns: seq<Addr>, j: int, cur: State<T>, values: seq<T>, cur': State<T>, v: T)
    requires AllLive(s.heap, ns) && Popped(s, ns, j, cur, values) && j < |ns|
    requires v == Values(cur, ns[j..])[0]
    requires Valid(cur', ns[j..][1..]) && Values(cur', ns[j..][1..]) == Values(cur, ns[j..])[1..]
    requires cur'.list.length == |ns[j..]| - 1
    requires cur'.list.hasDestructor == cur.list.hasDestructor && cur'.destroyed == cur.destroyed
    requires cur'.heap.Keys == cur.heap.Keys - {ns[j..][0]}
    requires EntriesKept(cur.heap, cur'.heap) && OthersUnchanged(cur.heap, cur'.heap, ns[j..])
    ensures Popped(s, ns, j + 1, cur', values + [v])
  {
    var vs := Values(s, ns);
    PrefixSnoc(ns, j);
    PrefixSnoc(vs, j);
    assert v == vs[j] by {
      assert Values(cur, ns[j..])[0] == vs[j..][0];
    }
    assert Values(cur', ns[j + 1..]) == vs[j + 1..] by {
      assert Values(cur, ns[j..])[1..] == vs[j..][1..];
    }
    assert forall a :: a in cur'.heap <==> a in s.heap && a !in ns[..j + 1] by {
      assert ns[j..][0] == ns[j];
    }
    FrameStep(s.heap, cur.heap, cur'.heap, ns, j);
    PoppedIntro(s, ns, j + 1, cur', values + [v]);
  }

  /** Establishes `Popped` from its parts, keeping the caller's context out of the final step. */
  lemma PoppedIntro<T>(s: State<T>, ns: seq<Addr>, j: int, cur: State<T>, values: seq<T>)
    requires AllLive(s.heap, ns) && 0 <= j <= |ns| && Valid(cur, ns[j..])
    requires values == Values(s, ns)[..j] && Values(cur, ns[j..]) == Values(s, ns)[j..]
    requires cur.list.length == |ns| - j
    requires cur.list.hasDestructor == s.list.hasDestructor && cur.destroyed == s.destroyed
    requires forall a :: a in cur.heap <==> a in s.heap && a !in ns[..j]
    requires EntriesKept(s.heap, cur.heap) && OthersUnchanged(s.heap, cur.heap, ns)
    ensures Popped(s, ns, j, cur, values)
  {
  }

  /**
   The frame of one pop inside a walk over `ns`: entries kept since `h0` stay
   kept, and a node outside `ns` is outside `ns[j..]`, so it stays unchanged.
   */
  lemma FrameStep<T>(h0: Heap<T>, h: Heap<T>, h': Heap<T>, ns: seq<Addr>, j: int)
    requires 0 <= j <= |ns|
    requires EntriesKept(h0, h) && OthersUnchanged(h0, h, ns)
    requires EntriesKept(h, h') && OthersUnchanged(h, h', ns[j..])
    ensures EntriesKept(h0, h') && OthersUnchanged(h0, h', ns)
  {
  }

  /**
   `k` successive `LIST_POPF` calls on a valid list return its first `k` values
   in order and leave a valid list of the rest, with `length` down by `k`,
   exactly the popped nodes freed, the destructor log untouched, no entry changed
   and no node outside the list changed.
   */
  method PopFrontRepeatedly<T>(s: State<T>, ghost ns: seq<Addr>, k: nat) returns (s': State<T>, values: seq<T>)
    requires Valid(s, ns) && k <= |ns|
    ensures values == Values(s, ns)[..k]
    ensures Valid(s', ns[k..]) && Values(s', ns[k..]) == Values(s, ns)[k..]
    ensures s'.list.length == |ns| - k
    ensures s'.list.hasDestructor == s.list.hasDestructor && s'.destroyed == s.destroyed
    ensures forall a :: a in s'.heap <==> a in s.heap && a !in ns[..k]
    ensures EntriesKept(s.heap, s'.heap) && OthersUnchanged(s.heap, s'.heap, ns)
  {
    s', values := s, [];
    var j := 0;
    while j < k
      invariant j <= k
      invariant Popped(s, ns, j, s', values)
    {
      var cur, v := ListPopF(s', ns[j..]);
      PoppedStep(s, ns, j, s', values, cur, v);
      s', values := cur, values + [v];
      j := j + 1;
    }
  }
}

=== FILE: memory.dfy ===
/**
 The C memory the list macros work on, as a value: nodes live at addresses of a
 heap map, a pointer is NULL or an address, and `malloc`/`free` add and drop
 heap entries. `size_t` arithmetic is written out with its wrap-around.
 */
module Memory {

  /** The address of a node obtained from `malloc`. */
  type Addr = nat

  /** A C pointer to a node: NULL, or the address of a node. */
  datatype Ptr = Null | At(addr: Addr)

  /** `struct list_T`: the forward link, the backward link and the stored element. */
  datatype Node<T> = Node(next: Ptr, prev: Ptr, entry: T)

  /** The nodes currently allocated, by address; `free(p)` removes `p`'s entry. */
  type Heap<T> = map<Addr, Node<T>>

  /** The two link fields of a node, as the macros name them in their `direction` argument. */
  datatype Link = Next | Prev

  /** The largest `size_t` value on a 64-bit target. */
  const SIZE_MAX: nat := 0xFFFF_FFFF_FFFF_FFFF

  /** A `size_t` value. */
  type SizeT = n: nat | n <= SIZE_MAX

  /** `++n` on a `size_t`: C's unsigned arithmetic, modulo `SIZE_MAX + 1`. */
  function Inc(n: SizeT): (r: SizeT)
    ensures r == (n + 1) % (SIZE_MAX + 1)
  {
    if n == SIZE_MAX then 0 else n + 1
  }

  /** `n--` on a `size_t` (the value left in `n`): C's unsigned arithmetic, modulo `SIZE_MAX + 1`. */
  function Dec(n: SizeT): (r: SizeT)
    ensures r == (n - 1) % (SIZE_MAX + 1)
  {
    if n == 0 then SIZE_MAX else n - 1
  }

  /** `node->next` or `node->prev`. */
  function GetLink<T>(n: Node<T>, d: Link): (r: Ptr) {
    match d
    case Next => n.next
    case Prev => n.prev
  }

  /** `node->next = p` or `node->prev = p`. */
  function SetLink<T>(n: Node<T>, d: Link, p: Ptr): (r: Node<T>) {
    match d
    case Next => n.(next := p)
    case Prev => n.(prev := p)
  }

  /** True when dereferencing `p` is defined: it is NULL-checked before use or points at a live node. */
  predicate Live<T>(h: Heap<T>, p: Ptr) {
    p.At? ==> p.addr in h
  }

  /** No address occurs twice in `xs`. */
  ghost predicate Distinct(xs: seq<Addr>) {
    forall i, j :: 0 <= i < j < |xs| ==> xs[i] != xs[j]
  }

  /** Every address of `xs` holds a live node. */
  ghost predicate AllLive<T>(h: Heap<T>, xs: seq<Addr>) {
    forall i :: 0 <= i < |xs| ==> xs[i] in h
  }

  /** Adding an address that is not already present keeps a sequence of addresses distinct. */
  lemma DistinctCons(x: Addr, xs: seq<Addr>)
    requires Distinct(xs) && x !in xs
    ensures Distinct([x] + xs) && Distinct(xs + [x])
  {
    var ys, zs := [x] + xs, xs + [x];
    assert forall k :: 0 <= k < |xs| ==> ys[k + 1] == xs[k] == zs[k];
  }

  /** The elements stored at the addresses `xs`, in that order. */
  function Entries<T>(h: Heap<T>, xs: seq<Addr>): (r: seq<T>)
    requires AllLive(h, xs)
  {
    seq(|xs|, i requires 0 <= i < |xs| && xs[i] in h => h[xs[i]].entry)
  }

  /** The entries along `xs` depend only on the `entry` fields of those nodes. */
  lemma EntriesAgree<T>(h: Heap<T>, h': Heap<T>, xs: seq<Addr>)
    requires AllLive(h, xs) && AllLive(h', xs)
    requires forall i :: 0 <= i < |xs| ==> h'[xs[i]].entry == h[xs[i]].entry
    ensures Entries(h', xs) == Entries(h, xs)
  {
  }

  /** Entries distribute over concatenation of address sequences. */
  lemma EntriesConcat<T>(h: Heap<T>, xs: seq<Addr>, ys: seq<Addr>)
    requires AllLive(h, xs) && AllLive(h, ys)
    ensures AllLive(h, xs + ys)
    ensures Entries(h, xs + ys) == Entries(h, xs) + Entries(h, ys)
  {
    var zs := xs + ys;
    assert forall i :: 0 <= i < |zs| ==> zs[i] == if i < |xs| then xs[i] else ys[i - |xs|];
  }

  /** Extending a prefix by one element. */
  lemma PrefixSnoc<X>(xs: seq<X>, k: int)
    requires 0 <= k < |xs|
    ensures xs[..k + 1] == xs[..k] + [xs[k]]
    ensures forall a :: a in xs[..k + 1] <==> a in xs[..k] || a == xs[k]
    ensures xs[k..][1..] == xs[k + 1..]
  {
  }

  /**
   `xs` backwards: defined by moving the first element behind the reversed rest,
   and characterised position by position.
   */
  function Reverse<X>(xs: seq<X>): (r: seq<X>)
    ensures |r| == |xs|
    ensures forall i :: 0 <= i < |xs| ==> r[i] == xs[|xs| - 1 - i]
  {
    if xs == [] then [] else Reverse(xs[1..]) + [xs[0]]
  }

  /**
   The allocator: returns an address that holds no live node. Which one `malloc`
   picks is outside the list code; only freshness matters to it.
   */
  method Malloc<T>(h: Heap<T>) returns (a: Addr)
    ensures a !in h
  {
    var rest := h.Keys;
    a := 0;
    while rest != {}
      invariant rest <= h.Keys
      invariant forall k :: k in h.Keys && k !in rest ==> k < a
      decreases |rest|
    {
      var k :| k in rest;
      if k >= a {
        a := k + 1;
      }
      rest := rest - {k};
    }
  }
}
